=== FILE: README.md ===
# Hydration reminder — a verified Dafny model

The device weighs a cup on a load cell. It waits until a cup is placed, then
watches for a drop in weight (a drink) during a monitoring period. When the
period passes without one, it tilts the cup slowly with a servo as an alert.
Every settled cup weight is appended to a CSV log. A separate sync service
reads that log back, sorts it by time and turns each pair of consecutive
records into at most one intake event: a drop, or a refill beyond a 10 g
margin. An earlier database script does the same with the drop rule only.

The model has one module per concern:

- `StateMachine` (`state_machine.dfy`): the `HydrationStateMachine` class.
  It holds the phase, the monitoring start time and the reference weight.
  Its transitions are methods and its timer queries are functions of an
  explicit clock reading `now`.
- `Servo` (`servo.dfy`): the `ServoController` class. Its commands are kept
  as a trace of `Move(angle)` and `Detached` events. The `rotate_slowly`
  generator is a `Rotation` value that `NextAngle` resumes one step at a
  time. `ParkSequence`, `StepsTrace` and `YieldedTrace` say which commands
  each operation sends.
- `Devices` (`devices.dfy`): the weight sensor and the clock, as finite
  scripts of readings consumed one per call. A failed read is 0 g.
- `Monitor` (`monitor.dfy`): the `HydrationMonitor` class with `wait_for_cup`,
  `monitor_drinking`, `trigger_alert` and `run` as methods with loops. Each
  loop stops, and says so, when a script runs out, where the device would
  block forever. The alert is specified by `RotationEnd` (where the rotation
  stops), `AlertCommands` (the servo commands) and `RotationReadings` (the
  readings consumed).
- `Logger` (`logger.dfy`): the `WeightLogger` class over a log file that is
  `None` while absent and otherwise a sequence of rows.
- `LogFormat` (`log_format.dfy`): the row format, meaning `strftime` and
  `f"{w:.2f}"` on the writing side and `strptime` and `float` on the reading
  side, with the round trip proved.
- `StableSort` (`stable_sort.dfy`): `list.sort(key=...)` as a stable
  insertion sort function, proved sorted, a permutation, stable and, for
  distinct keys, independent of input order.
- `IntakeClassifier` (`intake.dfy`): the sync service's classifier.
  `IntakeEventsOf` is its specification. `ReadRecords`, `ClassifyPairs` and
  `ReadAndClassify` are the loops proved against it.
- `LegacySync` (`legacy.dfy`): the database script's drop-only classifier,
  with its relationship to the sync service's proved.
- `Common` (`common.dfy`): `Option`, `Result`, the escaping exceptions, and
  Python's truncating `int()` on integers and reals.

Conventions:

- Weights are integer centigrams, which makes the two-decimal log text exact.
  The 150 g threshold is 15000 and the 205 g cup weight stays in whole grams,
  as the sync service takes it.
- The clock is read in whole seconds.
- `DefaultSettings` holds the shipped configuration values.

Event amounts are truncated with `int()`, not rounded. After an alert, `run`
always goes back to waiting for a cup, whether or not the alert saw drinking.

## Model

| member | source | states |
|---|---|---|
| StateMachine.HydrationStateMachine.constructor | core/state_machine.py:27-37 | A new machine is idle, with no start time, a reference weight of 0 and the given duration |
| StateMachine.HydrationStateMachine.TransitionToMonitoring | core/state_machine.py:49-58 | State becomes Monitoring, the reference becomes the given weight and the start becomes `now`; at that instant elapsed time is 0 and the timeout holds only for a non-positive duration |
| StateMachine.HydrationStateMachine.TransitionToAlerting | core/state_machine.py:63-66 | State becomes Alerting and the start time is cleared; the reference weight is unchanged |
| StateMachine.HydrationStateMachine.TransitionToIdle | core/state_machine.py:69-72 | State becomes Idle and the start time is cleared; the reference weight is unchanged |
| StateMachine.HydrationStateMachine.ResetMonitoringTimer | core/state_machine.py:75-84 | From any state: Monitoring, the new reference weight, the start at `now`, and elapsed time 0 |
| StateMachine.HydrationStateMachine.ElapsedMonitoringTime | core/state_machine.py:88-97 | 0 unless monitoring with a start time; otherwise start + elapsed == now |
| StateMachine.HydrationStateMachine.IsMonitoringTimeout | core/state_machine.py:99-112 | False outside Monitoring; in Monitoring, true exactly when elapsed >= duration |
| StateMachine.HydrationStateMachine.RemainingMonitoringTime | core/state_machine.py:114-125 | Never negative; 0 outside Monitoring; otherwise max(0, duration - elapsed) |
| StateMachine.TimeoutBoundary | core/state_machine.py:106-112 | The timeout is false before the duration has elapsed and true at exactly the duration, and once true it stays true |
| StateMachine.RemainingWithinDuration | core/state_machine.py:121-125 | With `now` not before the start, the remaining time lies in [0, duration] |
| StateMachine.TimeoutIffNothingRemains | core/state_machine.py:106-125 | While monitoring, the timeout holds exactly when no time remains |
| Servo.ParkSequence | controllers/servo_controller.py:57-77 | Gradual parking moves to trunc(max/4), then trunc(max/2), then max; direct parking moves to max only; both end with Move(max) followed by one detach |
| Servo.RotationAngles | controllers/servo_controller.py:104 | `range(max, min - 1, -1)`: max - min + 1 angles, the i-th being max - i |
| Servo.RotationVisitsEachAngleOnce | controllers/servo_controller.py:104-106 | The rotation starts at max, ends at min, strictly decreases and contains exactly the angles between them |
| Servo.StepInterval | controllers/servo_controller.py:93-99 | The pause per step is duration / steps - 0.1 s, clamped at 0, never negative |
| Servo.StepsTraceAlternates | controllers/servo_controller.py:104-110 | A completed rotation commands each angle in turn, each followed by a detach |
| Servo.YieldedThenDetached | controllers/servo_controller.py:104-110 | A generator suspended at a yield has not yet detached the last angle; resuming it supplies exactly that detach |
| Servo.ServoController.constructor | controllers/servo_controller.py:17-43 | Keeps the angle bounds; no command has been sent |
| Servo.ServoController.MoveToAngle | controllers/servo_controller.py:46-55 | Appends exactly one `Move(angle)` to the trace |
| Servo.ServoController.Detach | controllers/servo_controller.py:115-121 | Appends exactly one `Detached` to the trace |
| Servo.ServoController.MoveToInitialPosition | controllers/servo_controller.py:57-78 | Appends exactly the park sequence for `gradual` |
| Servo.ServoController.RotateSlowly | controllers/servo_controller.py:80-102 | The generator starts at max with nothing to detach, and its pause is the clamped step interval |
| Servo.ServoController.NextAngle | controllers/servo_controller.py:104-113 | Resuming detaches after the previous yield, if any; then it yields the next angle exactly when it is not below min, and the yielded angle is the one just commanded |
| Devices.WeightOf | controllers/weight_sensor.py:65-70 | A failed read counts as 0 g; otherwise the reading's weight |
| Devices.WeightSensor.GetWeight | controllers/weight_sensor.py:55-70 | Returns the next reading, with a fault read as 0, and consumes it; reports an exhausted script |
| Devices.Clock.Now | core/state_machine.py:58 | Returns the next clock reading, a valid calendar time, and consumes it; reports an exhausted script |
| Logger.WeightLogger.constructor | core/logger.py:34-45 | A missing file is created holding only the header row; an existing file is left as it was |
| Logger.WeightLogger.LogWeight | core/logger.py:47-71 | Returns true exactly when the file can be appended to; then the earlier rows are kept and exactly one row is added, holding the timestamp (or the current time when none is given) and the weight; on failure the file is unchanged |
| LogFormat.OrdinalIsChronological | services/sync_service.py:124 | The integer sort key orders valid datetimes exactly as Python compares them |
| LogFormat.OrdinalIsInjective | services/sync_service.py:124 | Different valid datetimes have different sort keys |
| LogFormat.FormatDateTime | core/logger.py:61 | `%Y-%m-%d %H:%M:%S` is always 19 characters |
| LogFormat.ParseDateTime | services/sync_service.py:114 | `strptime` accepts only real calendar datetimes |
| LogFormat.DateTimeRoundTrip | services/sync_service.py:114 | A timestamp the logger writes parses back to the same datetime |
| LogFormat.TimestampIsNotHeader | services/sync_service.py:104-107 | A written timestamp never contains "timestamp", so a headerless log's first row is read as data |
| LogFormat.FormatWeight | core/logger.py:66 | The weight text is a minus sign exactly for a negative weight, then at least one digit, a point and exactly two digits |
| LogFormat.ParseWeight | services/sync_service.py:115 | `float` accepts an optional sign before an unsigned decimal and nothing else; a negative result comes only from a leading minus; a plain digit string gives that many whole grams (the value of every other accepted form is pinned by `SplitAtPoint` and `ParseWeightSign`) |
| LogFormat.ParseMagnitude | services/sync_service.py:115 | An accepted unsigned decimal is non-empty, not a lone point, all digits apart from at most one point, with at most two digits after the point; a plain digit string gives that many whole grams (the value with a point is pinned by `SplitAtPoint`) |
| LogFormat.PointValue | services/sync_service.py:115 | The centigrams of a decimal: the whole part gives the grams, one fraction digit counts tenths and two count hundredths |
| LogFormat.SplitAtPoint | services/sync_service.py:115 | Digits, a point and at most two digits, at least one digit in all, parse to exactly `PointValue` of the two digit strings (longer fractions, which `float` also reads, are outside the model and refused) |
| LogFormat.ParseWeightSign | services/sync_service.py:115 | An accepted unsigned decimal keeps its value alone and after '+', and is negated after '-' |
| LogFormat.WeightRoundTrip | services/sync_service.py:115 | `float` of the two-decimal text gives back the weight in centigrams, negative weights included |
| LogFormat.FormatRow | core/logger.py:61-66 | A log row has two fields |
| LogFormat.ParseRow | services/sync_service.py:111-118 | A row parses exactly when it has at least two fields (extra fields are ignored), a valid timestamp and a valid weight, and the record holds those two values |
| LogFormat.RowRoundTrip | services/sync_service.py:113-116 | A row the logger writes reads back as the same record |
| StableSort.SortBy | services/sync_service.py:124 | The sorted records are in key order and are a permutation of the input |
| StableSort.SortKeepsSortedInput | services/sync_service.py:124 | Input already in key order comes out unchanged |
| StableSort.SortIsStable | services/sync_service.py:124 | Records with equal keys keep their input order |
| StableSort.SortIgnoresInputOrder | services/sync_service.py:124 | When the key determines the record, any two orderings of the same records sort alike |
| Common.TruncDiv | controllers/servo_controller.py:68-72 | `int()` of a quotient by a positive divisor truncates toward zero: q·d ≤ n < q·d + d for a non-negative dividend and q·d - d < n ≤ q·d for a negative one, so the result is never further from 0 than the true quotient |
| Common.TruncReal | services/sync_service.py:135 | `int()` of a real truncates toward zero: the result is within one of the real and never further from 0 |
| IntakeClassifier.DataRows | services/sync_service.py:104-109 | An empty file gives no rows; the first row is dropped only as a header; an empty first row raises the uncaught IndexError |
| IntakeClassifier.HeaderSkippedOnlyWhenNamed | services/sync_service.py:104-107 | The first row is skipped exactly when its first field contains "timestamp"; otherwise it is read as data |
| IntakeClassifier.ParseRecords | services/sync_service.py:111-118 | At most one record per row |
| IntakeClassifier.ParsedRecordsAreValid | services/sync_service.py:113-116 | Every record read carries a valid datetime |
| IntakeClassifier.SkipMalformedRow | services/sync_service.py:111-118 | A malformed row is skipped, and the rows before and after it are read as if it were absent |
| IntakeClassifier.FormattedRowsReadBack | services/sync_service.py:111-118 | The rows written for a sequence of records read back as those records, in order |
| IntakeClassifier.LoggedFileReadsBack | services/sync_service.py:104-118 | A log created with its header, or by an append without one, yields exactly the records logged |
| IntakeClassifier.ClassificationIgnoresRowOrder | services/sync_service.py:124 | With distinct timestamps, the sorted records, and so the events, do not depend on the order of the rows |
| IntakeClassifier.PairEvent | services/sync_service.py:128-147 | At most one event per pair, timed at the later record; a drop always emits one; a change in [-10 g, 0] emits none; under the drop-only rule an event occurs exactly on a drop |
| IntakeClassifier.DropAmountInWholeGrams | services/sync_service.py:133-139 | At factor 1.0 a drop emits the whole grams lost, truncated, so a drop under 1 g emits amount 0 |
| IntakeClassifier.DropAmountScaled | services/sync_service.py:133-139 | At any `gram_to_ml` factor a drop emits an event whose amount is the grams lost times the factor, truncated toward zero (within 1 below a non-negative value, within 1 above a negative one) |
| IntakeClassifier.RefillDependsOnlyOnEarlierWeight | services/sync_service.py:140-147 | A rise beyond 10 g emits exactly when the earlier weight exceeds the cup by at least 1 g, and the amount is that excess truncated, whatever the later weight |
| IntakeClassifier.PairwiseEvents | services/sync_service.py:127-149 | At most n - 1 events for n records |
| IntakeClassifier.EventTimesAreOrdered | services/sync_service.py:128-147 | On sorted records event times never decrease and none is later than the last record |
| IntakeClassifier.IntakeEventsOf | services/sync_service.py:93-149 | A missing or unreadable file, and an empty one, give no events; otherwise fewer events than rows |
| IntakeClassifier.LoggedFileClassifies | services/sync_service.py:97-149 | A log the logger wrote in time order classifies exactly as its records do |
| IntakeClassifier.InOrderRecordsStay | services/sync_service.py:124 | Records whose timestamps never go back are not reordered |
| IntakeClassifier.DrinkScenario | services/sync_service.py:128-139 | 600 g, 600 g, 400 g gives one 200 ml event at the third time |
| IntakeClassifier.RefillBelowCupScenario | services/sync_service.py:140-147 | 150 g followed by 500 g with a 205 g cup gives no event |
| IntakeClassifier.SyncService.constructor | services/sync_service.py:21-42 | Keeps the cup weight and the gram-to-millilitre factor |
| IntakeClassifier.SyncService.CalculateIntakeEvents | services/sync_service.py:86-149 | Gives exactly the classifier's events under the drop-or-refill rule with the service's parameters |
| IntakeClassifier.ReadRecords | services/sync_service.py:111-118 | The read loop collects exactly the records of the rows that parse, in file order |
| IntakeClassifier.ClassifyPairs | services/sync_service.py:127-149 | The diff loop emits exactly the events of the adjacent pairs, in order |
| IntakeClassifier.ReadAndClassify | services/sync_service.py:97-149 | The read, sort and diff steps give exactly the classifier's result |
| IntakeClassifier.CalculateIntakeFromCsv | services/sync_service.py:248-270 | The module-level helper gives exactly the service's events |
| LegacySync.LegacyIntakeOf | database/sync_supabase.py:19-58 | A missing file gives no events; exactly an unreadable one raises IOError |
| LegacySync.LegacyAmountsAreNonNegative | database/sync_supabase.py:46-56 | Every amount the script reports is non-negative |
| LegacySync.DropEventsAreNonNegative | database/sync_supabase.py:46-56 | The drop-only rule emits no negative amount |
| LegacySync.DropEventCount | database/sync_supabase.py:46-56 | The number of events equals the number of strictly decreasing adjacent pairs |
| LegacySync.DropsOnlyMatchesWithoutRefills | database/sync_supabase.py:46-56 | Without a refill pair the two rules emit the same events at factor 1.0 |
| LegacySync.DropsOnlyNeverReportsMore | database/sync_supabase.py:46-56 | The drop-only rule never emits more events than the drop-or-refill rule |
| LegacySync.LegacyMatchesSyncService | database/sync_supabase.py:19-58 | On a readable log without refills the two classifiers agree; on an unreadable one the script raises while the service returns no events |
| LegacySync.CalculateIntakeFromCsv | database/sync_supabase.py:19-58 | The script's loops give exactly the drop-only classifier's result |
| Monitor.FirstAtLeast | main.py:71-75 | The wait ends at the first reading of at least the threshold; every reading before it is below the threshold |
| Monitor.FirstDrop | main.py:115-117 | The first reading at least the threshold below the reference; none before it is |
| Monitor.ReadFaultLooksLikeDrinking | main.py:115-117 | A failed read counts as drinking exactly when the reference is at least the threshold |
| Monitor.ReadFaultIsNeverACup | main.py:72-75 | With a positive threshold a failed read never ends the wait for a cup |
| Monitor.RotationEnd | main.py:153-163 | The rotation stops at the first step with a drop from the alert's start weight, completes when no step has one, or runs out of readings |
| Monitor.AlertCommands | main.py:153-166 | Unless the readings ran out, the alert's commands end with the direct park |
| Monitor.RotationStopsParkedOrExhausted | main.py:160-166 | An alert takes no more readings than exist and ends either parked or with every reading used |
| Monitor.AlertWithoutDrinkingVisitsEveryAngle | main.py:153-166 | Without drinking, the alert completes, takes max - min + 1 readings and commands every angle from max to min |
| Monitor.InterruptedAlertSkipsLastDetach | main.py:157-163 | Drinking at step j stops after j + 1 readings, with the servo commanded to the angle max - j and then parked directly, once, without the detach of that last step |
| Monitor.HydrationMonitor.constructor | main.py:25-54 | The logger, the sensor, the servo and the state machine are built from the settings; the machine is idle and the log file exists |
| Monitor.HydrationMonitor.WaitForCup | main.py:58-88 | Enters Idle; succeeds exactly when a reading crosses the threshold and one more reading and a clock reading follow; returns that next reading, which is not compared with the threshold again, and, when the log is writable, logs it with the clock's calendar time as the single new row; one clock reading is used either way |
| Monitor.HydrationMonitor.StartMonitoring | main.py:184-187 | On success: the cup is seen at the first reading of at least the threshold, the next reading becomes the reference, both are consumed, the first clock reading is logged with that weight (when the log is writable) and the second starts the session in Monitoring; otherwise a script ran out; either way a writable log keeps its rows and gains exactly one on success and at most one otherwise, and a log that is not writable is unchanged |
| Monitor.HydrationMonitor.RestartAfterDrinking | main.py:120-127 | Sends exactly the gradual park, then on success leaves the same state as a session start (reference, readings and clock readings consumed, log row, new start time); otherwise a script ran out; a writable log gains at most one row, exactly one on success |
| Monitor.HydrationMonitor.MonitorDrinking | main.py:90-135 | The first session ends as `FirstSession` says: a drink exactly at the first drop read before a clock reading past the session, a timeout (returning true, in Monitoring, timed out at the last clock reading) exactly when that reading comes first; it consumes one reading per quiet poll and one clock reading per poll, the last included; each drink adds one gradual park and, to a writable log, one row after the earlier ones (the last drink's row may be missing when a script ran out during its restart; when it timed out none is missing); a log that is not writable is unchanged; without a drink the reference, the start and the log are unchanged |
| Monitor.HydrationMonitor.PollOnce | main.py:102-127 | One pass of the loop: it reports out of clock exactly when no clock reading is left, past the session exactly when the clock reading is past the duration from the start, out of readings exactly when none is left, and a drink exactly when the reading is a drop below the reference; a drink sends the gradual park and lets a writable log gain at most one row, and when the restart finds the cup the state is exactly a session start (`SessionStarted`) on the readings and clock readings after the two this pass took: the cup wait, its logged row, the new reference and the new start time; every other outcome leaves the reference, the start, the servo and the log as they were and consumes exactly the clock reading and the reading it took |
| Monitor.QuietPolls | main.py:102-117 | The number of polls before the first one past the session or reading a drop: all before it are quiet and it is not |
| Monitor.FirstSession | main.py:102-127 | A session ends with a timeout exactly at the first clock reading past it, runs out of clock exactly when every clock reading went to a quiet poll, and ends in a drink only at the first drop, read before the session ran out |
| Monitor.DropDuringSessionIsDrink | main.py:114-117 | A drop read at a poll where the session has not yet run out makes the session end in a drink, at that poll or earlier |
| Monitor.QuietSessionTimesOut | main.py:102-117 | When the polls before the first clock reading past the session are all quiet, the session times out there |
| Monitor.SessionEndsAt | main.py:102-117 | Once the polls before it were quiet, the first session ends exactly the way the next poll ends it (`EndsAtPoll`): out of clock, past the session, out of readings, or a drop |
| Monitor.HydrationMonitor.TriggerAlert | main.py:137-166 | Enters Alerting, takes the start weight, then sends exactly the commands and consumes exactly the readings that `RotationEnd` determines |
| Monitor.HydrationMonitor.WatchRotation | main.py:153-166 | The loop over the generator sends exactly `AlertCommands` and consumes exactly `RotationReadings` readings |
| Monitor.HydrationMonitor.Run | main.py:168-203 | Parks directly first; the cycle of monitoring, alert and wait ends only when a script runs out; the log only grows, its earlier rows never changed or removed |

## Left out

- Sleeps and settle delays are left out: the 2 s settle after a cup, the 1 s polling pause, the servo pauses and `step_interval`. Only the clamp of `step_interval` is stated.
- Console output is left out, and so are the elapsed and remaining times `monitor_drinking` reads only to print them.
- Float weights become integer centigrams. A weight with more than two decimals, and `float` forms such as exponents, `inf` or surrounding spaces, are not modelled. The classifier accepts only an optional sign, digits, and at most two decimals. Differences are exact here, while the source subtracts floats: `int(4.35 - 0.35)` is 3 in Python, because the difference is 3.9999999999999996, but 4 here.
- LogFormat.FormatDateTime: zero-pads a year below 1000 to four digits, where glibc's `strftime` prints it unpadded; the clock is taken to give years from 1000 on.
- `strptime` is modelled on zero-padded fixed-width fields only. It checks the calendar, leap years included.
- Both clocks, `time.time()` for the timer and `datetime.now()` for the log, become one scripted `Clock` that gives whole seconds and a calendar time together.
- The sensor is a script of readings. The averaging over `times` samples, `reset_and_tare`, `is_ready`, the HX711 setup and its startup failure are not modelled.
- Devices.WeightSensor.GetWeight: ignores `times`; the averaging happens inside the sensor library, which is not part of this model.
- The loops of `wait_for_cup`, `monitor_drinking` and `run` never end in the device. Here they stop when the sensor or clock script runs out.
- Monitor.HydrationMonitor.Run: states only that it parks first, that the log only grows and that it ends when a script runs out; it does not state the order of the phases within a cycle, the servo commands after the first park, or which rows are logged.
- Monitor.HydrationMonitor.MonitorDrinking: specifies the first session exactly; after the first drink it states only the number of parks, the number of log rows, that earlier rows are kept and that a script ran out unless it timed out. It does not state the content of the new rows, the reference weight and start time each restart sets, or which readings and clock readings the later sessions consumed, although each pass is `PollOnce`, whose own contract states all three for a restart that found the cup. It states how many readings the first session consumed rather than which (the sensor consumes them in order); it returns `true` on the timeout where the source returns its constant `False`, and `false` when a script ran out.
- Monitor.HydrationMonitor.PollOnce: when the restart after a drink runs out of a script, it states only that one is exhausted and that the log gained at most one row.
- Monitor.HydrationMonitor.StartMonitoring: when a script runs out it states only that one is exhausted, not how far the wait got.
- Servo.ServoController.RotateSlowly: requires `max != min`, because equal bounds make the step count 0 and the interval computation raise ZeroDivisionError. `TriggerAlert` and `Run` inherit this requirement.
- The `gpiozero` servo, the pulse widths and `cleanup` are not modelled, nor are `main()`'s exception handling and `GPIO.cleanup`.
- `WeightLogger._ensure_log_directory` and `get_log_file_size` are file-system queries and are not modelled. Creating a log that cannot be written raises at startup, so the logger constructor requires that this does not happen.
- The network and file-move parts of the sync service (`connect`, `_validate_config`, `sync_to_supabase`, `archive_log_file`, `run_sync`), the script's `sync_with_supabase` and `main`, and environment loading are left out.
- `config.py`, `config/settings.py`, the test scripts and the package `__init__` files hold no logic. `DefaultSettings` carries the configuration values.

=== FILE: common.dfy ===
/** Shared value types and the integer helpers that stand in for Python's
    truncating `int()` conversion. */
module Common {

  datatype Option<+T> = None | Some(value: T)

  datatype Result<+T, +E> = Ok(value: T) | Err(error: E)

  /** Exceptions that escape from the classifiers instead of being handled. */
  datatype Fault = IndexError | IOError

  /** `int(n / d)` in Python: true division, then truncation toward zero.
      Dafny's `/` is Euclidean, which differs for a negative numerator. */
  function TruncDiv(n: int, d: int): (q: int)
    requires d > 0
    ensures n >= 0 ==> q == n / d
    ensures n >= 0 ==> q >= 0
    ensures n <= 0 ==> q <= 0
    ensures -d < n < d ==> q == 0
    ensures n >= 0 ==> q * d <= n < q * d + d
    ensures n < 0 ==> q * d - d < n <= q * d
  {
    if n >= 0 then
      DivBracket(n, d);
      n / d
    else
      var m := (-n) / d;
      DivBracket(-n, d);
      NegateProduct(m, d);
      -m
  }

  /** The floor quotient of a non-negative dividend brackets it. */
  lemma DivBracket(n: nat, d: int)
    requires d > 0
    ensures 0 <= n / d && (n < d ==> n / d == 0)
    ensures (n / d) * d <= n < (n / d) * d + d
  {
    assert n == d * (n / d) + n % d;
  }

  lemma NegateProduct(m: int, d: int)
    ensures (-m) * d == -(m * d)
  {
  }

  /** Python's `int(x)` on a float: truncation toward zero. */
  function TruncReal(x: real): (r: int)
    ensures x >= 0.0 ==> r as real <= x < r as real + 1.0
    ensures x < 0.0 ==> r as real - 1.0 < x <= r as real
  {
    if x >= 0.0 then x.Floor else -((-x).Floor)
  }

  lemma AppendAssoc<T>(a: seq<T>, b: seq<T>, c: seq<T>)
    ensures a + b + c == a + (b + c)
  {
  }

  /** What `f` gives for the elements of `s` where it gives anything, in
      order: the shape of a loop that appends each parsed item and skips
      the ones that fail. */
  function FilterMap<A, B>(s: seq<A>, f: A -> Option<B>): (r: seq<B>)
    ensures |r| <= |s|
  {
    if s == [] then []
    else FilterMap(s[..|s| - 1], f) + (if f(s[|s| - 1]).Some? then [f(s[|s| - 1]).value] else [])
  }

  lemma FilterMapStep<A, B>(s: seq<A>, i: int, f: A -> Option<B>)
    requires 0 <= i < |s|
    ensures FilterMap(s[..i + 1], f) == FilterMap(s[..i], f) + (if f(s[i]).Some? then [f(s[i]).value] else [])
  {
    assert s[..i + 1][..i] == s[..i];
  }

  /** An element `f` rejects is skipped without disturbing the others. */
  lemma {:induction false} FilterMapAppend<A, B>(a: seq<A>, b: seq<A>, f: A -> Option<B>)
    ensures FilterMap(a + b, f) == FilterMap(a, f) + FilterMap(b, f)
    decreases |b|
  {
    if b == [] {
      assert a + b == a;
    } else {
      assert (a + b)[..|a + b| - 1] == a + b[..|b| - 1];
      FilterMapAppend(a, b[..|b| - 1], f);
    }
  }

  /** When `f` accepts every element, nothing is skipped. */
  lemma {:induction false} FilterMapAll<A, B>(s: seq<A>, r: seq<B>, f: A -> Option<B>)
    requires |s| == |r|
    requires forall i :: 0 <= i < |s| ==> f(s[i]) == Some(r[i])
    ensures FilterMap(s, f) == r
  {
    if s != [] {
      var n := |s|;
      FilterMapAll(s[..n - 1], r[..n - 1], f);
      assert f(s[n - 1]) == Some(r[n - 1]);
      assert r == r[..n - 1] + [r[n - 1]];
    }
  }

  /** Every item `FilterMap` yields is something `f` gave. */
  lemma {:induction false} FilterMapYields<A, B>(s: seq<A>, f: A -> Option<B>, j: int)
    requires 0 <= j < |FilterMap(s, f)|
    ensures exists i :: 0 <= i < |s| && f(s[i]) == Some(FilterMap(s, f)[j])
  {
    var n := |s|;
    var init := FilterMap(s[..n - 1], f);
    if j < |init| {
      FilterMapYields(s[..n - 1], f, j);
      var i :| 0 <= i < n - 1 && f(s[..n - 1][i]) == Some(init[j]);
      assert s[i] == s[..n - 1][i];
    } else {
      assert f(s[n - 1]) == Some(FilterMap(s, f)[j]);
    }
  }
}

=== FILE: devices.dfy ===
/** The environment the monitor reads: the load cell behind `WeightSensor`
    and the two clocks (`time.time()` for the monitoring timer and
    `datetime.now()` for log timestamps). Each is a finite script of values
    handed out one per call; an exhausted script is reported to the caller,
    which then stops. */
module Devices {
  import opened Common
  import opened LogFormat

  /** One `get_weight` outcome: a weight in centigrams, or a failure of the
      HX711 read. */
  datatype Reading = Grams(cg: int) | ReadFault

  /** `get_weight` reports a failed read as 0.0 g. */
  function WeightOf(r: Reading): (cg: int)
    ensures r.ReadFault? ==> cg == 0
    ensures r.Grams? ==> cg == r.cg
  {
    if r.Grams? then r.cg else 0
  }

  class WeightSensor {
    /** The readings still to come, one per `get_weight` call. */
    var readings: seq<Reading>

    constructor (readings: seq<Reading>)
      ensures this.readings == readings
    {
      this.readings := readings;
    }

    /** `get_weight(times)`: the next (already averaged) reading; `None`
        once the script is used up. */
    method GetWeight(times: int) returns (w: Option<int>)
      modifies this
      ensures old(readings) == [] ==> w == None && readings == []
      ensures old(readings) != [] ==> w == Some(WeightOf(old(readings)[0])) && readings == old(readings)[1..]
    {
      if readings == [] {
        return None;
      }
      w := Some(WeightOf(readings[0]));
      readings := readings[1..];
    }
  }

  /** One reading of the clocks: epoch seconds and the local calendar time. */
  datatype Instant = Instant(seconds: int, local: DateTime)

  class Clock {
    /** The instants still to come, one per reading of the clock. */
    var ticks: seq<Instant>
    /** The instant handed out last. */
    var last: Option<Instant>

    /** Local times are real calendar times. */
    ghost predicate Valid()
      reads this
    {
      forall i :: 0 <= i < |ticks| ==> ValidDateTime(ticks[i].local)
    }

    constructor (ticks: seq<Instant>)
      requires forall i :: 0 <= i < |ticks| ==> ValidDateTime(ticks[i].local)
      ensures Valid()
      ensures this.ticks == ticks && last == None
    {
      this.ticks := ticks;
      last := None;
    }

    method Now() returns (t: Option<Instant>)
      requires Valid()
      modifies this
      ensures Valid()
      ensures old(ticks) == [] ==> t == None && ticks == [] && last == old(last)
      ensures old(ticks) != [] ==> t == Some(old(ticks)[0]) && ticks == old(ticks)[1..] && last == t
      ensures t.Some? ==> ValidDateTime(t.value.local)
    {
      if ticks == [] {
        return None;
      }
      t := Some(ticks[0]);
      ticks := ticks[1..];
      last := t;
    }
  }
}

=== FILE: intake.dfy ===
/** The offline weight-event classifier of the sync service: reads the
    weight log, drops the header, skips malformed rows, sorts the records
    by timestamp (stably) and turns each adjacent pair into at most one
    intake event. The database-side variant differs only in its pair rule
    and its error handling, so the rule is a `Policy`. */
module IntakeClassifier {
  import opened Common
  import opened LogFormat
  import opened StableSort

  datatype IntakeEvent = IntakeEvent(time: DateTime, amount: int)

  /** The log file as the classifier finds it. */
  datatype LogSource = Missing | Unreadable | Present(rows: seq<Row>)

  /** The pair rule: the sync service's drop-or-refill rule with its cup
      weight (whole grams) and gram-to-millilitre factor, or the earlier
      drop-only rule with its fixed factor 1.0. */
  datatype Policy = DropsAndRefills(cupWeightG: int, gramToMl: real) | DropsOnly

  /** A rise counts as a refill only beyond this margin: 10 g. */
  const RefillMarginCg: int := 1000

  function GramToMl(policy: Policy): real {
    if policy.DropsAndRefills? then policy.gramToMl else 1.0
  }

  // ---------------------------------------------------------------------
  // Reading the rows

  /** The header step: no row at all ends the read with nothing; the first
      row is skipped when its first field contains "timestamp" and read as
      data otherwise; an empty first row raises the `IndexError` of
      `header[0]`, which nothing catches. */
  function DataRows(rows: seq<Row>): (r: Result<seq<Row>, Fault>)
    ensures r.Ok? ==> r.value == rows || (rows != [] && r.value == rows[1..])
    ensures r.Err? <==> rows != [] && rows[0] == []
  {
    if rows == [] then Ok([])
    else if rows[0] == [] then Err(IndexError)
    else if Contains(rows[0][0], "timestamp") then Ok(rows[1..])
    else Ok(rows)
  }

  lemma HeaderSkippedOnlyWhenNamed(rows: seq<Row>)
    requires rows != [] && rows[0] != []
    ensures Contains(rows[0][0], "timestamp") ==> DataRows(rows) == Ok(rows[1..])
    ensures !Contains(rows[0][0], "timestamp") ==> DataRows(rows) == Ok(rows)
  {
  }

  /** The records of the rows that parse, in file order. */
  function ParseRecords(rows: seq<Row>): (records: seq<LogRecord>)
    ensures |records| <= |rows|
  {
    FilterMap(rows, ParseRow)
  }

  /** Every record read carries a real calendar date and time. */
  lemma ParsedRecordsAreValid(rows: seq<Row>)
    ensures AllValid(ParseRecords(rows))
  {
    var records := ParseRecords(rows);
    forall j | 0 <= j < |records| ensures ValidDateTime(records[j].timestamp) {
      FilterMapYields(rows, ParseRow, j);
    }
  }

  /** A malformed row is skipped without disturbing the rows around it. */
  lemma SkipMalformedRow(a: seq<Row>, bad: Row, b: seq<Row>)
    requires ParseRow(bad).None?
    ensures ParseRecords(a + [bad] + b) == ParseRecords(a) + ParseRecords(b)
  {
    FilterMapAppend(a + [bad], b, ParseRow);
    FilterMapAppend(a, [bad], ParseRow);
    assert [bad][..0] == [];
  }

  predicate AllValid(records: seq<LogRecord>) {
    forall i :: 0 <= i < |records| ==> ValidDateTime(records[i].timestamp)
  }

  /** The rows the logger writes for `records`, one per record. */
  function FormatRows(records: seq<LogRecord>): (rows: seq<Row>)
    requires AllValid(records)
    ensures |rows| == |records|
  {
    seq(|records|, i requires 0 <= i < |records| => FormatRow(records[i].timestamp, records[i].weight))
  }

  /** Rows written by the logger read back as the records written. */
  lemma FormattedRowsReadBack(records: seq<LogRecord>)
    requires AllValid(records)
    ensures ParseRecords(FormatRows(records)) == records
  {
    var rows := FormatRows(records);
    forall i | 0 <= i < |rows| ensures ParseRow(rows[i]) == Some(records[i]) {
      RowRoundTrip(records[i].timestamp, records[i].weight);
    }
    FilterMapAll(rows, records, ParseRow);
  }

  /** A log the logger created (header first) or that an append created
      (no header) yields exactly the records that were logged. */
  lemma LoggedFileReadsBack(records: seq<LogRecord>)
    requires AllValid(records)
    ensures DataRows([Header] + FormatRows(records)) == Ok(FormatRows(records))
    ensures records != [] ==> DataRows(FormatRows(records)) == Ok(FormatRows(records))
    ensures ParseRecords(FormatRows(records)) == records
  {
    var rows := FormatRows(records);
    assert ([Header] + rows)[1..] == rows;
    assert Contains(Header[0], "timestamp") by {
      assert Header[0][..9] == "timestamp";
    }
    if records != [] {
      TimestampIsNotHeader(records[0].timestamp);
      assert rows[0][0] == FormatDateTime(records[0].timestamp);
    }
    FormattedRowsReadBack(records);
  }

  // ---------------------------------------------------------------------
  // Ordering the records (`events.sort(key=lambda e: e[0])`)

  /** The sort key: the timestamp as a number that orders as time does. */
  function Key(r: LogRecord): int {
    Ordinal(r.timestamp)
  }

  /** With no two different records at the same timestamp, the sorted
      records, and so the events, do not depend on the order in which the
      rows were read. */
  lemma ClassificationIgnoresRowOrder(s: seq<LogRecord>, t: seq<LogRecord>, policy: Policy)
    requires multiset(s) == multiset(t)
    requires AllValid(s)
    requires forall i, j :: 0 <= i < |s| && 0 <= j < |s| && s[i].timestamp == s[j].timestamp ==> s[i] == s[j]
    ensures SortBy(s, Key) == SortBy(t, Key)
    ensures PairwiseEvents(SortBy(s, Key), policy) == PairwiseEvents(SortBy(t, Key), policy)
  {
    forall i, j | 0 <= i < |s| && 0 <= j < |s| && Key(s[i]) == Key(s[j]) ensures s[i] == s[j] {
      OrdinalIsInjective(s[i].timestamp, s[j].timestamp);
    }
    SortIgnoresInputOrder(s, t, Key);
  }

  // ---------------------------------------------------------------------
  // Classifying adjacent pairs

  /** The event one pair of consecutive records gives, if any. A drop emits
      the weight lost, in millilitres, truncated. Under the sync service's
      rule a rise beyond the 10 g margin emits the earlier weight less the
      cup, in whole grams truncated, when that is positive. */
  function PairEvent(policy: Policy, prev: LogRecord, curr: LogRecord): (e: Option<IntakeEvent>)
    ensures e.Some? ==> e.value.time == curr.timestamp
    ensures prev.weight > curr.weight ==> e.Some?
    ensures curr.weight - RefillMarginCg <= prev.weight <= curr.weight ==> e.None?
    ensures policy.DropsOnly? ==> (e.Some? <==> prev.weight > curr.weight)
  {
    var diff := prev.weight - curr.weight;
    if diff > 0 then
      Some(IntakeEvent(curr.timestamp, TruncReal(diff as real / 100.0 * GramToMl(policy))))
    else if policy.DropsAndRefills? && diff < -RefillMarginCg then
      var amount := TruncDiv(prev.weight - policy.cupWeightG * 100, 100);
      if amount > 0 then Some(IntakeEvent(curr.timestamp, amount)) else None
    else None
  }

  /** At the factor 1.0 a drop emits the whole grams lost, truncated, so a
      drop of less than one gram emits an event of amount 0. */
  lemma DropAmountInWholeGrams(policy: Policy, prev: LogRecord, curr: LogRecord)
    requires prev.weight > curr.weight && GramToMl(policy) == 1.0
    ensures PairEvent(policy, prev, curr).Some?
    ensures var amount := PairEvent(policy, prev, curr).value.amount;
      amount * 100 <= prev.weight - curr.weight < amount * 100 + 100
    ensures prev.weight - curr.weight < 100 ==> PairEvent(policy, prev, curr).value.amount == 0
  {
  }

  /** At any factor a drop emits the millilitres `diff / 100.0 * factor`
      truncated toward zero: within one below that value when it is not
      negative, within one above it when it is. */
  lemma DropAmountScaled(policy: Policy, prev: LogRecord, curr: LogRecord)
    requires prev.weight > curr.weight
    ensures PairEvent(policy, prev, curr).Some?
    ensures var amount, ml := PairEvent(policy, prev, curr).value.amount,
                              (prev.weight - curr.weight) as real / 100.0 * GramToMl(policy);
      && (ml >= 0.0 ==> amount as real <= ml < amount as real + 1.0)
      && (ml < 0.0 ==> amount as real - 1.0 < ml <= amount as real)
  {
  }

  /** Under the refill rule, a rise emits an event exactly when the earlier
      weight exceeds the cup by at least one gram, whatever the later weight. */
  lemma RefillDependsOnlyOnEarlierWeight(cupWeightG: int, gramToMl: real, prev: LogRecord, curr: LogRecord)
    requires curr.weight - prev.weight > RefillMarginCg
    ensures var e := PairEvent(DropsAndRefills(cupWeightG, gramToMl), prev, curr);
      && (e.Some? <==> prev.weight >= cupWeightG * 100 + 100)
      && (e.Some? ==> e.value.amount * 100 <= prev.weight - cupWeightG * 100 < e.value.amount * 100 + 100)
  {
  }

  /** The events of a sequence of records: one per adjacent pair at most,
      appended in pair order. */
  function PairwiseEvents(s: seq<LogRecord>, policy: Policy): (events: seq<IntakeEvent>)
    ensures |events| <= if |s| == 0 then 0 else |s| - 1
  {
    if |s| < 2 then []
    else
      var e := PairEvent(policy, s[|s| - 2], s[|s| - 1]);
      PairwiseEvents(s[..|s| - 1], policy) + (if e.Some? then [e.value] else [])
  }

  /** On sorted records the event times never go backwards and none is
      later than the last record. */
  lemma {:induction false} EventTimesAreOrdered(s: seq<LogRecord>, policy: Policy)
    requires SortedBy(s, Key)
    ensures forall i, j :: 0 <= i < j < |PairwiseEvents(s, policy)| ==>
      Ordinal(PairwiseEvents(s, policy)[i].time) <= Ordinal(PairwiseEvents(s, policy)[j].time)
    ensures s != [] ==> forall i :: 0 <= i < |PairwiseEvents(s, policy)| ==>
      Ordinal(PairwiseEvents(s, policy)[i].time) <= Key(s[|s| - 1])
  {
    if |s| >= 2 {
      var s' := s[..|s| - 1];
      EventTimesAreOrdered(s', policy);
      var e := PairEvent(policy, s[|s| - 2], s[|s| - 1]);
      var before := PairwiseEvents(s', policy);
      var events := PairwiseEvents(s, policy);
      assert events == before + (if e.Some? then [e.value] else []);
      assert s'[|s'| - 1] == s[|s| - 2];
      assert Key(s[|s| - 2]) <= Key(s[|s| - 1]);
      var bound := Key(s[|s| - 1]);
      forall i | 0 <= i < |before| ensures Ordinal(before[i].time) <= bound {
        assert Ordinal(before[i].time) <= Key(s'[|s'| - 1]);
      }
      if e.Some? {
        assert events[|before|] == e.value && Ordinal(e.value.time) == bound;
      }
      forall i | 0 <= i < |events| ensures Ordinal(events[i].time) <= bound {
        if i < |before| {
          assert events[i] == before[i];
        }
      }
      forall i, j | 0 <= i < j < |events| ensures Ordinal(events[i].time) <= Ordinal(events[j].time) {
        assert events[i] == before[i];
        if j < |before| {
          assert events[j] == before[j];
        }
      }
    }
  }

  /** The whole classifier as a function of what is on disk. */
  function IntakeEventsOf(source: LogSource, policy: Policy): (r: Result<seq<IntakeEvent>, Fault>)
    ensures source.Missing? || source.Unreadable? ==> r == Ok([])
    ensures source.Present? && source.rows == [] ==> r == Ok([])
    ensures r.Ok? && source.Present? && source.rows != [] ==> |r.value| < |source.rows|
  {
    match source
    case Missing => Ok([])
    case Unreadable => Ok([])
    case Present(rows) =>
      match DataRows(rows)
      case Err(e) => Err(e)
      case Ok(data) =>
        var sorted := SortBy(ParseRecords(data), Key);
        assert |sorted| <= |data| <= |rows|;
        Ok(PairwiseEvents(sorted, policy))
  }

  /** A log the logger wrote in time order classifies exactly as its
      records do. */
  lemma LoggedFileClassifies(records: seq<LogRecord>, policy: Policy)
    requires AllValid(records) && SortedBy(records, Key)
    ensures IntakeEventsOf(Present([Header] + FormatRows(records)), policy) == Ok(PairwiseEvents(records, policy))
  {
    LoggedFileReadsBack(records);
    SortKeepsSortedInput(records, Key);
  }

  /** Records already in time order are classified in that order. */
  lemma InOrderRecordsStay(records: seq<LogRecord>)
    requires forall i :: 0 < i < |records| ==> Key(records[i - 1]) <= Key(records[i])
    ensures SortBy(records, Key) == records
  {
    assert SortedBy(records, Key) by {
      forall i, j | 0 <= i < j < |records| ensures Key(records[i]) <= Key(records[j]) {
        ChainedKeys(records, i, j);
      }
    }
    SortKeepsSortedInput(records, Key);
  }

  lemma {:induction false} ChainedKeys(records: seq<LogRecord>, i: int, j: int)
    requires forall i :: 0 < i < |records| ==> Key(records[i - 1]) <= Key(records[i])
    requires 0 <= i <= j < |records|
    ensures Key(records[i]) <= Key(records[j])
    decreases j - i
  {
    if i < j {
      ChainedKeys(records, i + 1, j);
    }
  }

  lemma DrinkPairs(t0: DateTime, t1: DateTime, t2: DateTime)
    ensures PairwiseEvents([LogRecord(t0, 60000), LogRecord(t1, 60000), LogRecord(t2, 40000)], DropsAndRefills(205, 1.0))
      == [IntakeEvent(t2, 200)]
  {
    var records := [LogRecord(t0, 60000), LogRecord(t1, 60000), LogRecord(t2, 40000)];
    var policy := DropsAndRefills(205, 1.0);
    var e := PairEvent(policy, records[1], records[2]);
    assert e == Some(IntakeEvent(t2, 200)) by {
      assert 20000 as real / 100.0 * 1.0 == 200.0;
    }
    assert PairwiseEvents(records[..2], policy) == [] by {
      assert records[..2][..1] == [LogRecord(t0, 60000)];
    }
  }

  /** A cup at 600 g, left alone, then at 400 g: one drink of 200 ml at
      the time of the lighter reading. */
  lemma DrinkScenario()
    ensures var t0, t1, t2 := DateTime(2024, 5, 1, 9, 0, 0), DateTime(2024, 5, 1, 9, 0, 5), DateTime(2024, 5, 1, 9, 1, 0);
      PairwiseEvents(SortBy([LogRecord(t0, 60000), LogRecord(t1, 60000), LogRecord(t2, 40000)], Key), DropsAndRefills(205, 1.0))
      == [IntakeEvent(t2, 200)]
  {
    var t0, t1, t2 := DateTime(2024, 5, 1, 9, 0, 0), DateTime(2024, 5, 1, 9, 0, 5), DateTime(2024, 5, 1, 9, 1, 0);
    InOrderRecordsStay([LogRecord(t0, 60000), LogRecord(t1, 60000), LogRecord(t2, 40000)]);
    DrinkPairs(t0, t1, t2);
  }

  /** A reading of 150 g, below the 205 g cup, followed by a refill to
      500 g: the refill emits nothing, since the earlier weight less the
      cup is negative. */
  lemma RefillBelowCupScenario()
    ensures var t0, t1 := DateTime(2024, 5, 1, 9, 0, 0), DateTime(2024, 5, 1, 9, 0, 5);
      PairwiseEvents(SortBy([LogRecord(t0, 15000), LogRecord(t1, 50000)], Key), DropsAndRefills(205, 1.0)) == []
  {
    var t0, t1 := DateTime(2024, 5, 1, 9, 0, 0), DateTime(2024, 5, 1, 9, 0, 5);
    var records := [LogRecord(t0, 15000), LogRecord(t1, 50000)];
    InOrderRecordsStay(records);
    assert records[..1] == [LogRecord(t0, 15000)];
  }

  // ---------------------------------------------------------------------
  // The sync service

  class SyncService {
    const cupWeightG: int
    const gramToMl: real

    constructor (cupWeightG: int := 205, gramToMl: real := 1.0)
      ensures this.cupWeightG == cupWeightG && this.gramToMl == gramToMl
    {
      this.cupWeightG := cupWeightG;
      this.gramToMl := gramToMl;
    }

    /** `calculate_intake_events`: a missing or unreadable log gives no
        events; otherwise the rows are parsed, sorted and diffed. */
    method CalculateIntakeEvents(source: LogSource) returns (r: Result<seq<IntakeEvent>, Fault>)
      ensures r == IntakeEventsOf(source, DropsAndRefills(cupWeightG, gramToMl))
    {
      r := ReadAndClassify(source, DropsAndRefills(cupWeightG, gramToMl));
    }
  }

  /** The read loop: the records of the rows that parse, in file order. */
  method ReadRecords(data: seq<Row>) returns (records: seq<LogRecord>)
    ensures records == ParseRecords(data)
  {
    records := [];
    var i := 0;
    while i < |data|
      invariant 0 <= i <= |data|
      invariant records == ParseRecords(data[..i])
    {
      var parsed := ParseRow(data[i]);
      if parsed.Some? {
        records := records + [parsed.value];
      }
      FilterMapStep(data, i, ParseRow);
      i := i + 1;
    }
    assert data[..i] == data;
  }

  /** The diff loop over `range(1, len(events))`. */
  method ClassifyPairs(records: seq<LogRecord>, policy: Policy) returns (events: seq<IntakeEvent>)
    ensures events == PairwiseEvents(records, policy)
  {
    events := [];
    if |records| < 2 {
      return;
    }
    var k := 1;
    while k < |records|
      invariant 1 <= k <= |records|
      invariant events == PairwiseEvents(records[..k], policy)
    {
      var e := PairEvent(policy, records[k - 1], records[k]);
      if e.Some? {
        events := events + [e.value];
      }
      assert records[..k + 1][..k] == records[..k];
      k := k + 1;
    }
    assert records[..k] == records;
  }

  /** The read-sort-diff pipeline shared by both classifiers. */
  method ReadAndClassify(source: LogSource, policy: Policy) returns (r: Result<seq<IntakeEvent>, Fault>)
    ensures r == IntakeEventsOf(source, policy)
  {
    if !source.Present? {
      return Ok([]);
    }
    var rows := source.rows;
    if rows == [] {
      return Ok([]);
    }
    if rows[0] == [] {
      return Err(IndexError);
    }
    var data := if Contains(rows[0][0], "timestamp") then rows[1..] else rows;
    var records := ReadRecords(data);
    records := SortBy(records, Key);
    var events := ClassifyPairs(records, policy);
    return Ok(events);
  }

  /** The module-level `calculate_intake_from_csv` of the sync service. */
  method CalculateIntakeFromCsv(source: LogSource, cupWeightG: int := 205, gramToMl: real := 1.0)
    returns (r: Result<seq<IntakeEvent>, Fault>)
    ensures r == IntakeEventsOf(source, DropsAndRefills(cupWeightG, gramToMl))
  {
    var service := new SyncService(cupWeightG, gramToMl);
    r := service.CalculateIntakeEvents(source);
  }
}

=== FILE: legacy.dfy ===
/** The database script's own `calculate_intake_from_csv`, the classifier
    that preceded the sync service. It reads, sorts and diffs the log the
    same way, but only a drop emits an event (at the fixed factor
    `GRAM_TO_ML` = 1.0), and a log that cannot be opened raises instead of
    giving no events. */
module LegacySync {
  import opened Common
  import opened LogFormat
  import opened StableSort
  import opened IntakeClassifier

  /** The script's classifier as a function of what is on disk. */
  function LegacyIntakeOf(source: LogSource): (r: Result<seq<IntakeEvent>, Fault>)
    ensures source.Unreadable? <==> r == Err(IOError)
    ensures source.Missing? ==> r == Ok([])
  {
    if source.Unreadable? then Err(IOError) else IntakeEventsOf(source, DropsOnly)
  }

  /** Every amount the script reports is non-negative. */
  lemma LegacyAmountsAreNonNegative(source: LogSource)
    ensures var r := LegacyIntakeOf(source);
      r.Ok? ==> forall i :: 0 <= i < |r.value| ==> r.value[i].amount >= 0
  {
    if source.Present? && DataRows(source.rows).Ok? {
      DropEventsAreNonNegative(SortBy(ParseRecords(DataRows(source.rows).value), Key));
    }
  }

  /** Under the drop-only rule every event is a non-negative amount. */
  lemma {:induction false} DropEventsAreNonNegative(s: seq<LogRecord>)
    ensures forall i :: 0 <= i < |PairwiseEvents(s, DropsOnly)| ==> PairwiseEvents(s, DropsOnly)[i].amount >= 0
  {
    if |s| >= 2 {
      DropEventsAreNonNegative(s[..|s| - 1]);
    }
  }

  /** Whether the weight at position `i` is below the one before it. */
  predicate DropsAt(s: seq<LogRecord>, i: int)
    requires 1 <= i < |s|
  {
    s[i - 1].weight > s[i].weight
  }

  /** The positions where the weight went down from the previous record. */
  function DecreasingPairs(s: seq<LogRecord>): (positions: set<int>)
    ensures forall i :: i in positions ==> 1 <= i < |s|
  {
    set i | 1 <= i < |s| && DropsAt(s, i)
  }

  /** Extending the log by one record adds its position exactly when the
      weight went down. */
  lemma DecreasingPairsSnoc(s: seq<LogRecord>)
    requires |s| >= 2
    ensures var n := |s|;
      DecreasingPairs(s) == DecreasingPairs(s[..n - 1]) + (if s[n - 2].weight > s[n - 1].weight then {n - 1} else {})
    ensures |s| - 1 !in DecreasingPairs(s[..|s| - 1])
  {
    var n, s' := |s|, s[..|s| - 1];
    forall i | 1 <= i < n - 1 ensures DropsAt(s, i) == DropsAt(s', i) {
      assert s'[i - 1] == s[i - 1] && s'[i] == s[i];
    }
  }

  /** The drop-only rule emits exactly one event per decrease. */
  lemma {:induction false} DropEventCount(s: seq<LogRecord>)
    ensures |PairwiseEvents(s, DropsOnly)| == |DecreasingPairs(s)|
  {
    if |s| < 2 {
      assert DecreasingPairs(s) == {};
    } else {
      DropEventCount(s[..|s| - 1]);
      DecreasingPairsSnoc(s);
    }
  }

  /** No adjacent pair of `s` is one the sync service counts as a refill. */
  predicate NoRefillEvent(s: seq<LogRecord>, cupWeightG: int) {
    forall i :: 1 <= i < |s| ==>
      !(s[i].weight - s[i - 1].weight > RefillMarginCg && s[i - 1].weight >= cupWeightG * 100 + 100)
  }

  /** Without refills the two classifiers agree event for event, when the
      sync service uses the factor 1.0 as well. */
  lemma {:induction false} DropsOnlyMatchesWithoutRefills(s: seq<LogRecord>, cupWeightG: int)
    requires NoRefillEvent(s, cupWeightG)
    ensures PairwiseEvents(s, DropsOnly) == PairwiseEvents(s, DropsAndRefills(cupWeightG, 1.0))
  {
    if |s| >= 2 {
      var n := |s|;
      var s' := s[..n - 1];
      assert NoRefillEvent(s', cupWeightG) by {
        forall i | 1 <= i < |s'| ensures !(s'[i].weight - s'[i - 1].weight > RefillMarginCg && s'[i - 1].weight >= cupWeightG * 100 + 100) {
          assert s'[i] == s[i] && s'[i - 1] == s[i - 1];
        }
      }
      DropsOnlyMatchesWithoutRefills(s', cupWeightG);
      var prev, curr := s[n - 2], s[n - 1];
      if curr.weight - prev.weight > RefillMarginCg {
        RefillDependsOnlyOnEarlierWeight(cupWeightG, 1.0, prev, curr);
      }
      assert PairEvent(DropsOnly, prev, curr) == PairEvent(DropsAndRefills(cupWeightG, 1.0), prev, curr);
    }
  }

  /** The drop-only rule never reports more events than the sync service,
      whatever its factor. */
  lemma {:induction false} DropsOnlyNeverReportsMore(s: seq<LogRecord>, cupWeightG: int, gramToMl: real)
    ensures |PairwiseEvents(s, DropsOnly)| <= |PairwiseEvents(s, DropsAndRefills(cupWeightG, gramToMl))|
  {
    if |s| >= 2 {
      DropsOnlyNeverReportsMore(s[..|s| - 1], cupWeightG, gramToMl);
    }
  }

  /** On the same readable log the two classifiers agree when its sorted
      records hold no refill; only an unreadable log tells them apart
      regardless of content. */
  lemma LegacyMatchesSyncService(source: LogSource, cupWeightG: int)
    requires source.Present? && DataRows(source.rows).Ok? ==>
      NoRefillEvent(SortBy(ParseRecords(DataRows(source.rows).value), Key), cupWeightG)
    ensures !source.Unreadable? ==> LegacyIntakeOf(source) == IntakeEventsOf(source, DropsAndRefills(cupWeightG, 1.0))
    ensures source.Unreadable? ==> LegacyIntakeOf(source) == Err(IOError) && IntakeEventsOf(source, DropsAndRefills(cupWeightG, 1.0)) == Ok([])
  {
    if source.Present? && DataRows(source.rows).Ok? {
      DropsOnlyMatchesWithoutRefills(SortBy(ParseRecords(DataRows(source.rows).value), Key), cupWeightG);
    }
  }

  /** `calculate_intake_from_csv` of the database script: the shared read,
      sort and diff, except that a failing `open` propagates. */
  method CalculateIntakeFromCsv(source: LogSource) returns (r: Result<seq<IntakeEvent>, Fault>)
    ensures r == LegacyIntakeOf(source)
  {
    if source.Unreadable? {
      return Err(IOError);
    }
    r := ReadAndClassify(source, DropsOnly);
  }
}

=== FILE: log_format.dfy ===
/** The on-disk weight log: one CSV row per record, a second-precision
    `YYYY-MM-DD HH:MM:SS` timestamp and the weight in grams with exactly two
    decimals. Weights are held as integer centigrams, so the two-decimal text
    is exact. This module holds the writer's formatting and the classifiers'
    row parser (`strptime` on field 0, `float` on field 1). */
module LogFormat {
  import opened Common

  /** A CSV row after splitting on commas. */
  type Row = seq<string>

  /** The header row written when the log file is created. */
  const Header: Row := ["timestamp", "weight_g"]

  datatype DateTime = DateTime(year: int, month: int, day: int, hour: int, minute: int, second: int)

  /** One parsed log line: when it was written and the weight in centigrams. */
  datatype LogRecord = LogRecord(timestamp: DateTime, weight: int)

  // ---------------------------------------------------------------------
  // Calendar

  predicate IsLeapYear(y: int) {
    y % 4 == 0 && (y % 100 != 0 || y % 400 == 0)
  }

  function DaysInMonth(y: int, m: int): (n: int)
    requires 1 <= m <= 12
    ensures 28 <= n <= 31
    ensures n == 29 <==> m == 2 && IsLeapYear(y)
  {
    if m == 2 then (if IsLeapYear(y) then 29 else 28)
    else if m == 4 || m == 6 || m == 9 || m == 11 then 30
    else 31
  }

  /** The values Python's `datetime` accepts (seconds stop at 59). */
  predicate ValidDateTime(t: DateTime) {
    && 1 <= t.year <= 9999
    && 1 <= t.month <= 12
    && 1 <= t.day <= DaysInMonth(t.year, t.month)
    && 0 <= t.hour < 24
    && 0 <= t.minute < 60
    && 0 <= t.second < 60
  }

  /** Python's chronological comparison of two datetimes: field by field. */
  predicate ChronoBefore(a: DateTime, b: DateTime) {
    || a.year < b.year
    || (a.year == b.year && a.month < b.month)
    || (a.year == b.year && a.month == b.month && a.day < b.day)
    || (a.year == b.year && a.month == b.month && a.day == b.day && a.hour < b.hour)
    || (a.year == b.year && a.month == b.month && a.day == b.day && a.hour == b.hour && a.minute < b.minute)
    || (a.year == b.year && a.month == b.month && a.day == b.day && a.hour == b.hour && a.minute == b.minute && a.second < b.second)
  }

  /** A mixed-radix integer key for a datetime, used as the sort key. */
  function Ordinal(t: DateTime): int {
    ((((t.year * 12 + (t.month - 1)) * 31 + (t.day - 1)) * 24 + t.hour) * 60 + t.minute) * 60 + t.second
  }

  lemma RadixStep(h1: int, l1: int, h2: int, l2: int, base: int)
    requires base > 0 && 0 <= l1 < base && 0 <= l2 < base
    ensures h1 * base + l1 < h2 * base + l2 <==> h1 < h2 || (h1 == h2 && l1 < l2)
    ensures h1 * base + l1 == h2 * base + l2 <==> h1 == h2 && l1 == l2
  {
    if h1 < h2 {
      assert h1 * base + l1 < (h1 + 1) * base <= h2 * base;
    } else if h2 < h1 {
      assert h2 * base + l2 < (h2 + 1) * base <= h1 * base;
    }
  }

  /** On valid datetimes the key orders exactly as Python compares them. */
  lemma {:induction false} OrdinalIsChronological(a: DateTime, b: DateTime)
    requires ValidDateTime(a) && ValidDateTime(b)
    ensures Ordinal(a) < Ordinal(b) <==> ChronoBefore(a, b)
  {
    RadixStep(a.year, a.month - 1, b.year, b.month - 1, 12);
    var ym1, ym2 := a.year * 12 + (a.month - 1), b.year * 12 + (b.month - 1);
    RadixStep(ym1, a.day - 1, ym2, b.day - 1, 31);
    var d1, d2 := ym1 * 31 + (a.day - 1), ym2 * 31 + (b.day - 1);
    RadixStep(d1, a.hour, d2, b.hour, 24);
    var h1, h2 := d1 * 24 + a.hour, d2 * 24 + b.hour;
    RadixStep(h1, a.minute, h2, b.minute, 60);
    var m1, m2 := h1 * 60 + a.minute, h2 * 60 + b.minute;
    RadixStep(m1, a.second, m2, b.second, 60);
    assert Ordinal(a) == m1 * 60 + a.second && Ordinal(b) == m2 * 60 + b.second;
  }

  /** Different valid datetimes have different keys. */
  lemma {:induction false} OrdinalIsInjective(a: DateTime, b: DateTime)
    requires ValidDateTime(a) && ValidDateTime(b)
    ensures Ordinal(a) == Ordinal(b) <==> a == b
  {
    RadixStep(a.year, a.month - 1, b.year, b.month - 1, 12);
    var ym1, ym2 := a.year * 12 + (a.month - 1), b.year * 12 + (b.month - 1);
    RadixStep(ym1, a.day - 1, ym2, b.day - 1, 31);
    var d1, d2 := ym1 * 31 + (a.day - 1), ym2 * 31 + (b.day - 1);
    RadixStep(d1, a.hour, d2, b.hour, 24);
    var h1, h2 := d1 * 24 + a.hour, d2 * 24 + b.hour;
    RadixStep(h1, a.minute, h2, b.minute, 60);
    var m1, m2 := h1 * 60 + a.minute, h2 * 60 + b.minute;
    RadixStep(m1, a.second, m2, b.second, 60);
    assert Ordinal(a) == m1 * 60 + a.second && Ordinal(b) == m2 * 60 + b.second;
  }

  // ---------------------------------------------------------------------
  // Decimal digits

  predicate IsDigit(c: char) {
    '0' <= c <= '9'
  }

  predicate AllDigits(s: string) {
    forall i :: 0 <= i < |s| ==> IsDigit(s[i])
  }

  function DigitChar(d: nat): (c: char)
    requires d < 10
    ensures IsDigit(c)
  {
    (48 + d) as char
  }

  function DigitValue(c: char): (d: nat)
    requires IsDigit(c)
    ensures d < 10 && DigitChar(d) == c
  {
    (c as int - 48) as nat
  }

  function Pow10(w: nat): (p: nat)
    ensures p >= 1
  {
    if w == 0 then 1 else 10 * Pow10(w - 1)
  }

  /** The decimal value of a string of digits. */
  function DigitsToNat(s: string): (n: nat)
    requires AllDigits(s)
    ensures n < Pow10(|s|)
  {
    if s == [] then 0 else DigitsToNat(s[..|s| - 1]) * 10 + DigitValue(s[|s| - 1])
  }

  /** The last `w` decimal digits of `n`, zero-padded (`%02d`, `%04d`). */
  function Pad(n: nat, w: nat): (s: string)
    ensures |s| == w && AllDigits(s)
  {
    if w == 0 then "" else Pad(n / 10, w - 1) + [DigitChar(n % 10)]
  }

  lemma {:induction false} PadRoundTrip(n: nat, w: nat)
    requires n < Pow10(w)
    ensures DigitsToNat(Pad(n, w)) == n
  {
    if w > 0 {
      var s := Pad(n, w);
      assert s[..|s| - 1] == Pad(n / 10, w - 1);
      PadRoundTrip(n / 10, w - 1);
    }
  }

  /** The decimal numeral of `n` without leading zeros. */
  function NatToString(n: nat): (s: string)
    ensures |s| >= 1 && AllDigits(s)
  {
    if n < 10 then [DigitChar(n)] else NatToString(n / 10) + [DigitChar(n % 10)]
  }

  lemma {:induction false} NatToStringRoundTrip(n: nat)
    ensures DigitsToNat(NatToString(n)) == n
  {
    var s := NatToString(n);
    if n < 10 {
      assert s[..|s| - 1] == [];
    } else {
      assert s[..|s| - 1] == NatToString(n / 10);
      NatToStringRoundTrip(n / 10);
    }
  }

  /** Index of the first `c` in `s`, or `|s|` when there is none. */
  function IndexOf(s: string, c: char): (k: nat)
    ensures k <= |s|
    ensures forall i :: 0 <= i < k ==> s[i] != c
    ensures k < |s| ==> s[k] == c
  {
    if s == [] then 0 else if s[0] == c then 0 else 1 + IndexOf(s[1..], c)
  }

  /** Python's `pat in s` on strings. */
  predicate Contains(s: string, pat: string) {
    |s| >= |pat| && (s[..|pat|] == pat || (|s| > 0 && Contains(s[1..], pat)))
  }

  lemma {:induction false} ContainsNeedsFirstChar(s: string, pat: string)
    requires |pat| > 0 && pat[0] !in s
    ensures !Contains(s, pat)
  {
    if |s| >= |pat| {
      assert s[..|pat|][0] == s[0];
      if |s| > 0 {
        ContainsNeedsFirstChar(s[1..], pat);
      }
    }
  }

  // ---------------------------------------------------------------------
  // Timestamps: strftime / strptime with '%Y-%m-%d %H:%M:%S'

  function FormatDateTime(t: DateTime): (s: string)
    requires ValidDateTime(t)
    ensures |s| == 19
  {
    Pad(t.year, 4) + "-" + Pad(t.month, 2) + "-" + Pad(t.day, 2) + " "
      + Pad(t.hour, 2) + ":" + Pad(t.minute, 2) + ":" + Pad(t.second, 2)
  }

  /** `datetime.strptime(s, '%Y-%m-%d %H:%M:%S')` on zero-padded fields,
      including the calendar check; `None` stands for the `ValueError`. */
  function ParseDateTime(s: string): (r: Option<DateTime>)
    ensures r.Some? ==> ValidDateTime(r.value)
  {
    if |s| == 19 && s[4] == '-' && s[7] == '-' && s[10] == ' ' && s[13] == ':' && s[16] == ':'
       && AllDigits(s[0..4]) && AllDigits(s[5..7]) && AllDigits(s[8..10])
       && AllDigits(s[11..13]) && AllDigits(s[14..16]) && AllDigits(s[17..19])
    then
      var t := DateTime(DigitsToNat(s[0..4]), DigitsToNat(s[5..7]), DigitsToNat(s[8..10]),
                        DigitsToNat(s[11..13]), DigitsToNat(s[14..16]), DigitsToNat(s[17..19]));
      if ValidDateTime(t) then Some(t) else None
    else None
  }

  lemma DateTimeRoundTrip(t: DateTime)
    requires ValidDateTime(t)
    ensures ParseDateTime(FormatDateTime(t)) == Some(t)
  {
    var s := FormatDateTime(t);
    assert s[0..4] == Pad(t.year, 4);
    assert s[5..7] == Pad(t.month, 2);
    assert s[8..10] == Pad(t.day, 2);
    assert s[11..13] == Pad(t.hour, 2);
    assert s[14..16] == Pad(t.minute, 2);
    assert s[17..19] == Pad(t.second, 2);
    PadRoundTrip(t.year, 4);
    PadRoundTrip(t.month, 2);
    PadRoundTrip(t.day, 2);
    PadRoundTrip(t.hour, 2);
    PadRoundTrip(t.minute, 2);
    PadRoundTrip(t.second, 2);
  }

  /** A formatted timestamp never looks like the header's first field. */
  lemma TimestampIsNotHeader(t: DateTime)
    requires ValidDateTime(t)
    ensures !Contains(FormatDateTime(t), "timestamp")
  {
    var s := FormatDateTime(t);
    forall i | 0 <= i < |s| ensures s[i] != 't' {
      assert IsDigit(s[i]) || s[i] in "- :";
    }
    ContainsNeedsFirstChar(s, "timestamp");
  }

  // ---------------------------------------------------------------------
  // Weights: f"{w:.2f}" and float()

  /** `f"{w:.2f}"` for a weight of `cg` centigrams. */
  function FormatWeight(cg: int): (s: string)
    ensures |s| >= 4
    ensures s[0] == '-' <==> cg < 0
    ensures var lead := if cg < 0 then 1 else 0;
      s[|s| - 3] == '.' && |s| - 3 > lead && AllDigits(s[lead..|s| - 3]) && AllDigits(s[|s| - 2..])
  {
    if cg < 0 then "-" + FormatMagnitude(-cg) else FormatMagnitude(cg)
  }

  /** The unsigned part of `FormatWeight`: whole grams, a point, two digits. */
  function FormatMagnitude(m: nat): (s: string)
    ensures |s| >= 4 && IsDigit(s[0])
    ensures s[|s| - 3] == '.' && AllDigits(s[..|s| - 3]) && AllDigits(s[|s| - 2..])
  {
    var whole, frac := NatToString(m / 100), Pad(m % 100, 2);
    assert (whole + "." + frac)[..|whole|] == whole;
    assert (whole + "." + frac)[|whole| + 1..] == frac;
    whole + "." + frac
  }

  /** `float(s)` on optionally signed decimals with at most two fraction
      digits, in centigrams; `None` stands for the `ValueError`. */
  function ParseWeight(s: string): (r: Option<int>)
    ensures r.Some? ==> |s| >= 1
    ensures r.Some? && r.value < 0 ==> s[0] == '-'
    ensures r.Some? ==>
      ParseMagnitude(if s[0] == '-' || s[0] == '+' then s[1..] else s) == Some(if r.value < 0 then -r.value else r.value)
    ensures AllDigits(s) && s != [] ==> r == Some(DigitsToNat(s) * 100)
  {
    var signed := |s| > 0 && (s[0] == '-' || s[0] == '+');
    match ParseMagnitude(if signed then s[1..] else s)
    case None => None
    case Some(m) =>
      Some(if signed && s[0] == '-' then -(m as int) else m as int)
  }

  /** The unsigned part of `ParseWeight`: digits, optionally a point and at
      most two fraction digits, at least one digit in all. */
  function ParseMagnitude(body: string): (r: Option<nat>)
    ensures r.Some? ==> |body| >= 1 && body != "."
    ensures r.Some? ==> forall i :: 0 <= i < |body| ==> IsDigit(body[i]) || i == IndexOf(body, '.')
    ensures r.Some? ==> |body| - IndexOf(body, '.') <= 3
    ensures AllDigits(body) && body != [] ==> r == Some(DigitsToNat(body) * 100)
  {
    var dot := IndexOf(body, '.');
    var whole := body[..dot];
    var frac := if dot < |body| then body[dot + 1..] else "";
    assert forall i :: 0 <= i < dot ==> body[i] == whole[i];
    assert forall i :: dot < i < |body| ==> body[i] == frac[i - dot - 1];
    assert AllDigits(body) ==> dot == |body| && whole == body;
    if AllDigits(whole) && AllDigits(frac) && |frac| <= 2 && |whole| + |frac| >= 1 then
      Some(PointValue(whole, frac))
    else None
  }

  /** The first `c` in `a + [c] + b` is the one after `a` when `a` has none. */
  lemma {:induction false} IndexOfAfter(a: string, c: char, b: string)
    requires c !in a
    ensures IndexOf(a + [c] + b, c) == |a|
  {
    if a != [] {
      assert (a + [c] + b)[1..] == a[1..] + [c] + b;
      IndexOfAfter(a[1..], c, b);
    }
  }

  /** The centigrams a decimal with the given whole and fraction digits
      stands for: one fraction digit counts tenths, two count hundredths. */
  function PointValue(whole: string, frac: string): (v: nat)
    requires AllDigits(whole) && AllDigits(frac) && |frac| <= 2
    ensures v / 100 == DigitsToNat(whole)
    ensures |frac| == 1 ==> v % 100 == DigitsToNat(frac) * 10
    ensures |frac| == 2 ==> v % 100 == DigitsToNat(frac)
    ensures frac == [] ==> v % 100 == 0
  {
    assert Pow10(2) == 100 && Pow10(1) == 10;
    DigitsToNat(whole) * 100 + DigitsToNat(frac) * (if |frac| == 1 then 10 else 1)
  }

  /** `ParseMagnitude` once the point and the digit strings around it are
      known. */
  lemma ParseMagnitudeAt(body: string, dot: nat, whole: string, frac: string)
    requires dot < |body| && IndexOf(body, '.') == dot
    requires body[..dot] == whole && body[dot + 1..] == frac
    requires AllDigits(whole) && AllDigits(frac) && |frac| <= 2 && |whole| + |frac| >= 1
    ensures ParseMagnitude(body) == Some(PointValue(whole, frac))
  {
  }

  /** A point between a digit string and at most two fraction digits, with
      at least one digit in all, is read as whole grams and the tenths or
      hundredths after the point; a string with more fraction digits is
      refused. */
  lemma SplitAtPoint(whole: string, frac: string)
    requires AllDigits(whole) && AllDigits(frac)
    ensures |frac| <= 2 && |whole| + |frac| >= 1 ==>
      ParseMagnitude(whole + "." + frac) == Some(PointValue(whole, frac))
    ensures |frac| > 2 ==> ParseMagnitude(whole + "." + frac) == None
  {
    var body := whole + "." + frac;
    assert IndexOf(body, '.') == |whole| by {
      forall i | 0 <= i < |whole| ensures whole[i] != '.' { }
      IndexOfAfter(whole, '.', frac);
    }
    assert body[..|whole|] == whole && body[|whole| + 1..] == frac;
    if |frac| <= 2 && |whole| + |frac| >= 1 {
      ParseMagnitudeAt(body, |whole|, whole, frac);
    }
  }

  lemma MagnitudeRoundTrip(m: nat)
    ensures ParseMagnitude(FormatMagnitude(m)) == Some(m)
  {
    var q, r := m / 100, m % 100;
    var whole, frac := NatToString(q), Pad(r, 2);
    NatToStringRoundTrip(q);
    PadRoundTrip(r, 2);
    SplitAtPoint(whole, frac);
    assert FormatMagnitude(m) == whole + "." + frac;
    assert PointValue(whole, frac) == m;
  }

  /** `ParseWeight` on an accepted unsigned body after a sign. */
  lemma ParseWeightPrefixed(c: char, body: string, m: nat)
    requires c == '-' || c == '+'
    requires ParseMagnitude(body) == Some(m)
    ensures ParseWeight([c] + body) == Some(if c == '-' then -(m as int) else m as int)
  {
    assert ([c] + body)[1..] == body;
  }

  /** The sign handling of `ParseWeight`: an accepted unsigned body is
      read as itself, after a '+' as the same value and after a '-' as its
      negation. */
  lemma ParseWeightSign(body: string, m: nat)
    requires ParseMagnitude(body) == Some(m)
    ensures ParseWeight(body) == Some(m as int)
    ensures ParseWeight("+" + body) == Some(m as int)
    ensures ParseWeight("-" + body) == Some(-(m as int))
  {
    assert body[0] != '-' && body[0] != '+' by {
      assert IsDigit(body[0]) || IndexOf(body, '.') == 0;
    }
    ParseWeightPrefixed('+', body, m);
    ParseWeightPrefixed('-', body, m);
  }

  lemma WeightRoundTrip(cg: int)
    ensures ParseWeight(FormatWeight(cg)) == Some(cg)
  {
    var m: nat := if cg < 0 then -cg else cg;
    MagnitudeRoundTrip(m);
    ParseWeightSign(FormatMagnitude(m), m);
  }

  // ---------------------------------------------------------------------
  // Rows

  /** The row `log_weight` writes. */
  function FormatRow(t: DateTime, cg: int): (row: Row)
    requires ValidDateTime(t)
    ensures |row| == 2
  {
    [FormatDateTime(t), FormatWeight(cg)]
  }

  /** One data row as the classifiers read it: field 0 through `strptime`,
      field 1 through `float`; `None` stands for the `ValueError` or
      `IndexError` that makes the row skipped. Extra fields are ignored. */
  function ParseRow(row: Row): (r: Option<LogRecord>)
    ensures r.Some? <==> |row| >= 2 && ParseDateTime(row[0]).Some? && ParseWeight(row[1]).Some?
    ensures r.Some? ==> r.value.timestamp == ParseDateTime(row[0]).value && ValidDateTime(r.value.timestamp)
    ensures r.Some? ==> r.value.weight == ParseWeight(row[1]).value
  {
    if |row| < 2 then None
    else match ParseDateTime(row[0])
      case None => None
      case Some(t) =>
        match ParseWeight(row[1])
        case None => None
        case Some(w) => Some(LogRecord(t, w))
  }

  /** A row written by the logger reads back as the same record. */
  lemma RowRoundTrip(t: DateTime, cg: int)
    requires ValidDateTime(t)
    ensures ParseRow(FormatRow(t, cg)) == Some(LogRecord(t, cg))
  {
    DateTimeRoundTrip(t);
    WeightRoundTrip(cg);
  }
}

=== FILE: logger.dfy ===
/** `WeightLogger`: the append-only CSV weight log. The file is a value that
    is `None` while it does not exist and otherwise holds its rows. */
module Logger {
  import opened Common
  import opened LogFormat

  /** The rows of a log file; an absent file has none. */
  function RowsOf(file: Option<seq<Row>>): (rows: seq<Row>)
    ensures file.None? ==> rows == []
  {
    if file.Some? then file.value else []
  }

  /** The log only grows: `file1` holds every row of `file0`, in place,
      when the log is writable, and is `file0` itself when it is not. */
  ghost predicate Kept(file0: Option<seq<Row>>, file1: Option<seq<Row>>, writable: bool)
  {
    if writable then RowsOf(file0) <= RowsOf(file1) else file1 == file0
  }

  /** `file1` is `file0` with between `lo` and `hi` rows appended after the
      rows it held, when the log is writable; `file0` itself when it is not. */
  ghost predicate Appended(file0: Option<seq<Row>>, file1: Option<seq<Row>>, writable: bool, lo: nat, hi: nat)
  {
    if writable then
      && RowsOf(file0) <= RowsOf(file1)
      && lo <= |RowsOf(file1)| - |RowsOf(file0)| <= hi
    else file1 == file0
  }

  /** A log that only grows, twice, only grows. */
  lemma KeptChain(file0: Option<seq<Row>>, file1: Option<seq<Row>>, file2: Option<seq<Row>>, writable: bool)
    requires Kept(file0, file1, writable) && Kept(file1, file2, writable)
    ensures Kept(file0, file2, writable)
  {
  }

  /** A file is itself with no rows appended. */
  lemma AppendedNone(file: Option<seq<Row>>, writable: bool)
    ensures Appended(file, file, writable, 0, 0)
  {
  }

  /** Appends in two steps add up. */
  lemma AppendedChain(file0: Option<seq<Row>>, file1: Option<seq<Row>>, file2: Option<seq<Row>>,
                      writable: bool, lo1: nat, hi1: nat, lo2: nat, hi2: nat)
    requires Appended(file0, file1, writable, lo1, hi1)
    requires Appended(file1, file2, writable, lo2, hi2)
    ensures Appended(file0, file2, writable, lo1 + lo2, hi1 + hi2)
  {
  }

  class WeightLogger {
    /** The log file's contents; `None` while it does not exist. */
    var file: Option<seq<Row>>
    /** Whether appending to the file succeeds; when it does not, every
        append raises the `IOError` that `log_weight` catches. */
    const writable: bool

    /** The constructor with `_initialize_log_file`: opening with mode 'x'
        creates the file holding only the header; when the file exists the
        `FileExistsError` is swallowed and the file is left as it was.
        Creating a file where nothing can be written raises, so the caller
        must not ask for that. */
    constructor (existing: Option<seq<Row>>, writable: bool)
      requires existing.Some? || writable
      ensures this.writable == writable
      ensures existing.None? ==> file == Some([Header])
      ensures existing.Some? ==> file == existing
    {
      this.writable := writable;
      if existing.None? {
        file := Some([Header]);
      } else {
        file := existing;
      }
    }

    /** `log_weight`: formats the timestamp (the current time when none is
        given) to seconds and the weight to two decimals, and appends that
        one row. Mode 'a' creates a missing file, without a header. Reports
        success, or `false` when the append raised an `IOError`. */
    method LogWeight(weight: int, timestamp: Option<DateTime>, now: DateTime) returns (ok: bool)
      requires ValidDateTime(now)
      requires timestamp.Some? ==> ValidDateTime(timestamp.value)
      modifies this
      ensures ok == writable
      ensures ok ==> file.Some? && file.value == RowsOf(old(file)) + [FormatRow(if timestamp.Some? then timestamp.value else now, weight)]
      ensures !ok ==> file == old(file)
    {
      var stamp := if timestamp.Some? then timestamp.value else now;
      if !writable {
        return false;
      }
      file := Some(RowsOf(file) + [FormatRow(stamp, weight)]);
      return true;
    }
  }
}

=== FILE: monitor.dfy ===
/** `HydrationMonitor`: the device's main loop. It waits for a cup, watches
    for a drop in weight during the monitoring period, and tilts the cup
    with the servo when the period passes without one. Sensor readings and
    clock readings come from finite scripts; each phase stops and reports
    it when a script runs out, where the device would block forever. The
    `time.sleep` pauses and the progress output are left out. */
module Monitor {
  import opened Common
  import opened LogFormat
  import opened Logger
  import opened StateMachine
  import opened Servo
  import opened Devices

  /** The settings the loop reads. Weights are in centigrams. */
  datatype Settings = Settings(
    weightThresholdCg: int,
    monitoringDurationS: int,
    alertDurationS: int,
    readTimes: int,
    minAngle: int,
    maxAngle: int)

  /** The shipped defaults: a 150 g threshold, 10 s of monitoring, a 20 s
      alert, 5 samples per reading and a servo range of -90 to 90 degrees. */
  const DefaultSettings: Settings := Settings(15000, 10, 20, 5, -90, 90)

  /** Position of the first reading of at least `threshold`, or `|rs|`. */
  function FirstAtLeast(rs: seq<Reading>, threshold: int): (k: nat)
    ensures k <= |rs|
    ensures forall i :: 0 <= i < k ==> WeightOf(rs[i]) < threshold
    ensures k < |rs| ==> WeightOf(rs[k]) >= threshold
  {
    if rs == [] then 0
    else if WeightOf(rs[0]) >= threshold then 0
    else 1 + FirstAtLeast(rs[1..], threshold)
  }

  /** Whether reading `r` is at least `threshold` below `reference`: how
      both the monitoring phase and the alert recognise drinking. */
  predicate Drop(r: Reading, reference: int, threshold: int) {
    reference - WeightOf(r) >= threshold
  }

  /** Position of the first reading that is a drop from `reference`, or `|rs|`. */
  function FirstDrop(rs: seq<Reading>, reference: int, threshold: int): (k: nat)
    ensures k <= |rs|
    ensures forall i :: 0 <= i < k ==> !Drop(rs[i], reference, threshold)
    ensures k < |rs| ==> Drop(rs[k], reference, threshold)
  {
    if rs == [] then 0
    else if Drop(rs[0], reference, threshold) then 0
    else 1 + FirstDrop(rs[1..], reference, threshold)
  }

  /** A read failure reads as 0 g, so it is taken for a lifted cup whenever
      the reference weight is at least the threshold. */
  lemma ReadFaultLooksLikeDrinking(reference: int, threshold: int)
    ensures Drop(ReadFault, reference, threshold) <==> reference >= threshold
  {
  }

  /** A read failure never counts as a cup being placed. */
  lemma ReadFaultIsNeverACup(rs: seq<Reading>, threshold: int)
    requires threshold > 0
    ensures FirstAtLeast(rs, threshold) < |rs| ==> rs[FirstAtLeast(rs, threshold)].Grams?
  {
  }

  /** Whether a session started at `start` and lasting `duration` seconds
      has run out at clock reading `t`: `is_monitoring_timeout` at `t`. */
  predicate Expired(t: Instant, start: int, duration: int) {
    t.seconds - start >= duration
  }

  /** How the first session of `monitor_drinking` ends, after `polls`
      quiet polls (each a clock reading that was not past the session,
      then a reading that was not a drop): the clock shows the timeout,
      the next reading is a drink, or a script runs out. */
  datatype SessionEnd = TimedOut(polls: nat) | Drank(polls: nat) | ClockRanOut(polls: nat) | SensorRanOut(polls: nat)

  /** The number of quiet polls before the first one that is past the
      session or reads a drop, or before a script runs out. */
  function QuietPolls(rs: seq<Reading>, ts: seq<Instant>, reference: int, threshold: int, start: int, duration: int): (p: nat)
    ensures p <= |rs| && p <= |ts|
    ensures forall j :: 0 <= j < p ==> !Expired(ts[j], start, duration) && !Drop(rs[j], reference, threshold)
    ensures p < |rs| && p < |ts| ==> Expired(ts[p], start, duration) || Drop(rs[p], reference, threshold)
  {
    if rs == [] || ts == [] then 0
    else if Expired(ts[0], start, duration) || Drop(rs[0], reference, threshold) then 0
    else 1 + QuietPolls(rs[1..], ts[1..], reference, threshold, start, duration)
  }

  /** `QuietPolls` is pinned down by its ensures. */
  lemma {:induction false} QuietPollsIs(rs: seq<Reading>, ts: seq<Instant>, reference: int, threshold: int, start: int, duration: int, p: nat)
    requires p <= |rs| && p <= |ts|
    requires forall j :: 0 <= j < p ==> !Expired(ts[j], start, duration) && !Drop(rs[j], reference, threshold)
    requires p < |rs| && p < |ts| ==> Expired(ts[p], start, duration) || Drop(rs[p], reference, threshold)
    ensures QuietPolls(rs, ts, reference, threshold, start, duration) == p
  {
    if p > 0 {
      QuietPollsIs(rs[1..], ts[1..], reference, threshold, start, duration, p - 1);
    }
  }

  /** The end of the first session against `reference`, started at
      `start`, given the sensor readings `rs` and clock readings `ts`. */
  function FirstSession(rs: seq<Reading>, ts: seq<Instant>, reference: int, threshold: int, start: int, duration: int): (e: SessionEnd)
    ensures e.polls <= |rs| && e.polls <= |ts|
    ensures forall j :: 0 <= j < e.polls ==> !Expired(ts[j], start, duration) && !Drop(rs[j], reference, threshold)
    ensures e.TimedOut? <==> e.polls < |ts| && Expired(ts[e.polls], start, duration)
    ensures e.ClockRanOut? <==> e.polls == |ts|
    ensures e.SensorRanOut? ==> e.polls == |rs| && e.polls < |ts| && !Expired(ts[e.polls], start, duration)
    ensures e.Drank? ==>
      && e.polls < |rs| && e.polls < |ts| && !Expired(ts[e.polls], start, duration)
      && Drop(rs[e.polls], reference, threshold) && e.polls == FirstDrop(rs, reference, threshold)
  {
    var p := QuietPolls(rs, ts, reference, threshold, start, duration);
    if p == |ts| then ClockRanOut(p)
    else if Expired(ts[p], start, duration) then TimedOut(p)
    else if p == |rs| then SensorRanOut(p)
    else
      FirstDropIs(rs, reference, threshold, p);
      Drank(p)
  }

  /** A drop read while the session has not run out is a drink: the
      first session ends at the first drop. */
  lemma DropDuringSessionIsDrink(rs: seq<Reading>, ts: seq<Instant>, reference: int, threshold: int, start: int, duration: int, j: nat)
    requires j < |rs| && j < |ts| && Drop(rs[j], reference, threshold)
    requires forall i :: 0 <= i <= j ==> !Expired(ts[i], start, duration)
    ensures FirstSession(rs, ts, reference, threshold, start, duration).Drank?
    ensures FirstSession(rs, ts, reference, threshold, start, duration).polls <= j
  {
    var e := FirstSession(rs, ts, reference, threshold, start, duration);
    assert e.polls <= j;
  }

  /** Without a drop before the first clock reading past the session, the
      session times out there. */
  lemma QuietSessionTimesOut(rs: seq<Reading>, ts: seq<Instant>, reference: int, threshold: int, start: int, duration: int, p: nat)
    requires p < |ts| && p <= |rs| && Expired(ts[p], start, duration)
    requires forall j :: 0 <= j < p ==> !Expired(ts[j], start, duration) && !Drop(rs[j], reference, threshold)
    ensures FirstSession(rs, ts, reference, threshold, start, duration) == TimedOut(p)
  {
    QuietPollsIs(rs, ts, reference, threshold, start, duration, p);
  }

  /** The first `n` polls were quiet: none found the session past its
      duration or read a drop. */
  ghost predicate QuietPrefix(rs: seq<Reading>, ts: seq<Instant>, reference: int, threshold: int, start: int, duration: int, n: nat)
    requires n <= |rs| && n <= |ts|
  {
    n == 0 ||
    (QuietPrefix(rs, ts, reference, threshold, start, duration, n - 1)
     && !Expired(ts[n - 1], start, duration) && !Drop(rs[n - 1], reference, threshold))
  }

  /** `QuietPrefix` holds exactly when each of the first `n` polls was quiet. */
  lemma {:induction false} QuietPrefixAll(rs: seq<Reading>, ts: seq<Instant>, reference: int, threshold: int, start: int, duration: int, n: nat)
    requires n <= |rs| && n <= |ts|
    ensures QuietPrefix(rs, ts, reference, threshold, start, duration, n) <==>
      forall j :: 0 <= j < n ==> !Expired(ts[j], start, duration) && !Drop(rs[j], reference, threshold)
  {
    if n > 0 {
      QuietPrefixAll(rs, ts, reference, threshold, start, duration, n - 1);
    }
  }

  /** Whether the poll numbered `e.polls` ends a session the way `e` says:
      the clock has run out, it shows the session past its duration, the
      sensor has run out, or the reading is a drop. */
  predicate EndsAtPoll(e: SessionEnd, rs: seq<Reading>, ts: seq<Instant>, reference: int, threshold: int, start: int, duration: int) {
    match e
    case ClockRanOut(i) => i == |ts|
    case TimedOut(i) => i < |ts| && Expired(ts[i], start, duration)
    case SensorRanOut(i) => i < |ts| && !Expired(ts[i], start, duration) && i == |rs|
    case Drank(i) => i < |ts| && !Expired(ts[i], start, duration) && i < |rs| && Drop(rs[i], reference, threshold)
  }

  /** One more quiet poll: the readings and clock readings left move on by
      one and the quiet prefix grows by one. */
  lemma QuietStep(rs: seq<Reading>, ts: seq<Instant>, reference: int, threshold: int, start: int, duration: int, i: nat,
                  readings: seq<Reading>, ticks: seq<Instant>)
    requires i < |rs| && i < |ts| && readings == rs[i..] && ticks == ts[i..]
    requires QuietPrefix(rs, ts, reference, threshold, start, duration, i)
    requires !Expired(ts[i], start, duration) && !Drop(rs[i], reference, threshold)
    ensures readings[1..] == rs[i + 1..] && ticks[1..] == ts[i + 1..]
    ensures QuietPrefix(rs, ts, reference, threshold, start, duration, i + 1)
  {
  }

  /** The first session ends at the first poll that ends it: once the
      polls before `e.polls` are known to be quiet, the end is what that
      poll finds. */
  lemma SessionEndsAt(rs: seq<Reading>, ts: seq<Instant>, reference: int, threshold: int, start: int, duration: int, e: SessionEnd)
    requires e.polls <= |rs| && e.polls <= |ts|
    requires QuietPrefix(rs, ts, reference, threshold, start, duration, e.polls)
    requires EndsAtPoll(e, rs, ts, reference, threshold, start, duration)
    ensures FirstSession(rs, ts, reference, threshold, start, duration) == e
  {
    QuietPrefixAll(rs, ts, reference, threshold, start, duration, e.polls);
    QuietPollsIs(rs, ts, reference, threshold, start, duration, e.polls);
  }

  /** How the rotation of `trigger_alert` ends, given the readings taken
      after the reference one, one per angle: interrupted by drinking at
      rotation step `step`, completed, or out of readings at step `step`. */
  datatype AlertEnd = Interrupted(step: nat) | Completed | RanOut(step: nat)

  /** The end of a rotation of `n` steps against the reference weight. */
  function RotationEnd(rest: seq<Reading>, reference: int, threshold: int, n: nat): (e: AlertEnd)
    ensures e.Interrupted? ==> e.step < n && e.step < |rest| && Drop(rest[e.step], reference, threshold)
    ensures e.Completed? ==> n <= |rest|
    ensures e.RanOut? ==> e.step < n && e.step == |rest|
    ensures !e.Completed? ==> forall i :: 0 <= i < e.step ==> !Drop(rest[i], reference, threshold)
    ensures e.Completed? ==> forall i :: 0 <= i < n ==> !Drop(rest[i], reference, threshold)
  {
    var m := if n <= |rest| then n else |rest|;
    var ws := rest[..m];
    var j := FirstDrop(ws, reference, threshold);
    assert forall i :: 0 <= i < m ==> ws[i] == rest[i];
    if j < m then Interrupted(j)
    else if m == n then Completed
    else RanOut(m)
  }

  /** The commands the servo receives during a rotation through `angles`
      that ends with `e`. An interrupted rotation is never resumed, so its
      last angle is not detached before the servo parks. */
  function AlertCommands(angles: seq<int>, e: AlertEnd, maxAngle: int): (cmds: seq<ServoCommand>)
    requires !e.Completed? ==> e.step < |angles|
    ensures !e.RanOut? ==> |cmds| >= 2 && cmds[|cmds| - 2] == Move(maxAngle) && cmds[|cmds| - 1] == Detached
  {
    match e
    case Interrupted(j) => YieldedTrace(angles[..j + 1]) + ParkSequence(maxAngle, false)
    case Completed => StepsTrace(angles) + ParkSequence(maxAngle, false)
    case RanOut(j) => YieldedTrace(angles[..j + 1])
  }

  /** How many readings a rotation of `n` steps that ends with `e` takes. */
  function RotationReadings(e: AlertEnd, n: nat): nat {
    match e
    case Interrupted(j) => j + 1
    case Completed => n
    case RanOut(j) => j
  }

  /** A rotation stops only with the servo parked or with every reading
      used. */
  lemma RotationStopsParkedOrExhausted(rest: seq<Reading>, reference: int, threshold: int, maxAngle: int, minAngle: int)
    ensures var angles := RotationAngles(maxAngle, minAngle);
      var e := RotationEnd(rest, reference, threshold, |angles|);
      var cmds := AlertCommands(angles, e, maxAngle);
      && RotationReadings(e, |angles|) <= |rest|
      && (e.RanOut? ==> RotationReadings(e, |angles|) == |rest|)
      && (!e.RanOut? ==> cmds[|cmds| - 2..] == ParkSequence(maxAngle, false))
  {
    var angles := RotationAngles(maxAngle, minAngle);
    var e := RotationEnd(rest, reference, threshold, |angles|);
    var cmds := AlertCommands(angles, e, maxAngle);
    if !e.RanOut? {
      assert cmds[|cmds| - 2..] == [cmds[|cmds| - 2], cmds[|cmds| - 1]];
    }
  }

  /** `FirstDrop` is pinned down by its two ensures. */
  lemma FirstDropIs(ws: seq<Reading>, reference: int, threshold: int, k: nat)
    requires k <= |ws|
    requires forall i :: 0 <= i < k ==> !Drop(ws[i], reference, threshold)
    requires k < |ws| ==> Drop(ws[k], reference, threshold)
    ensures FirstDrop(ws, reference, threshold) == k
  {
  }

  /** A rotation with no drinking at any angle commands every angle from
      the maximum down to the minimum, detaching after each, and then parks. */
  lemma AlertWithoutDrinkingVisitsEveryAngle(rest: seq<Reading>, reference: int, threshold: int, maxAngle: int, minAngle: int)
    requires maxAngle >= minAngle
    requires |rest| >= |RotationAngles(maxAngle, minAngle)|
    requires forall i :: 0 <= i < |rest| ==> !Drop(rest[i], reference, threshold)
    ensures var angles := RotationAngles(maxAngle, minAngle);
      var e := RotationEnd(rest, reference, threshold, |angles|);
      var cmds := AlertCommands(angles, e, maxAngle);
      && e == Completed && RotationReadings(e, |angles|) == maxAngle - minAngle + 1
      && (forall a :: minAngle <= a <= maxAngle ==> Move(a) in cmds)
  {
    var angles := RotationAngles(maxAngle, minAngle);
    CompletedExit(rest, reference, threshold, |angles|);
    var cmds := StepsTrace(angles) + ParkSequence(maxAngle, false);
    StepsTraceAlternates(angles);
    forall a | minAngle <= a <= maxAngle ensures Move(a) in cmds {
      var i := maxAngle - a;
      assert cmds[2 * i] == Move(angles[i]);
    }
  }

  /** A rotation interrupted by drinking at step `j` has commanded exactly
      the first `j + 1` angles; the last of them is never detached (the
      suspended generator is not resumed) before the servo parks. */
  lemma InterruptedAlertSkipsLastDetach(rest: seq<Reading>, reference: int, threshold: int, maxAngle: int, minAngle: int, j: nat)
    requires j <= maxAngle - minAngle && j < |rest|
    requires forall i :: 0 <= i < j ==> !Drop(rest[i], reference, threshold)
    requires Drop(rest[j], reference, threshold)
    ensures var angles := RotationAngles(maxAngle, minAngle);
      var e := RotationEnd(rest, reference, threshold, |angles|);
      var cmds := AlertCommands(angles, e, maxAngle);
      && e == Interrupted(j) && RotationReadings(e, |angles|) == j + 1
      && |cmds| == 2 * j + 3
      && cmds[2 * j] == Move(maxAngle - j)
      && cmds[2 * j + 1] == Move(maxAngle)
      && cmds[2 * j + 2] == Detached
  {
    var angles := RotationAngles(maxAngle, minAngle);
    DropExit(rest, reference, threshold, |angles|, j);
    var prefix := angles[..j + 1];
    YieldedThenDetached(prefix);
    StepsTraceAlternates(prefix);
    assert StepsTrace(prefix)[2 * j] == Move(prefix[j]);
  }

  lemma DropExit(rest: seq<Reading>, reference: int, threshold: int, n: nat, k: nat)
    requires k < n && k < |rest|
    requires forall i :: 0 <= i < k ==> !Drop(rest[i], reference, threshold)
    requires Drop(rest[k], reference, threshold)
    ensures RotationEnd(rest, reference, threshold, n) == Interrupted(k)
  {
    var m := if n <= |rest| then n else |rest|;
    var ws := rest[..m];
    forall i | 0 <= i <= k ensures ws[i] == rest[i] { }
    FirstDropIs(ws, reference, threshold, k);
  }

  lemma CompletedExit(rest: seq<Reading>, reference: int, threshold: int, n: nat)
    requires n <= |rest|
    requires forall i :: 0 <= i < n ==> !Drop(rest[i], reference, threshold)
    ensures RotationEnd(rest, reference, threshold, n) == Completed
  {
    var ws := rest[..n];
    forall i | 0 <= i < n ensures ws[i] == rest[i] { }
    FirstDropIs(ws, reference, threshold, n);
  }

  /** The rotation loop's exits: `t0` is the trace before the rotation and
      `t` the trace when the loop leaves. */
  lemma InterruptedTrace(t0: seq<ServoCommand>, t: seq<ServoCommand>, rest: seq<Reading>, reference: int, threshold: int,
                         maxAngle: int, minAngle: int, k: nat)
    requires k < |RotationAngles(maxAngle, minAngle)| && k < |rest|
    requires t == t0 + YieldedTrace(RotationAngles(maxAngle, minAngle)[..k + 1])
    requires forall i :: 0 <= i < k ==> !Drop(rest[i], reference, threshold)
    requires Drop(rest[k], reference, threshold)
    ensures var angles := RotationAngles(maxAngle, minAngle);
      var e := RotationEnd(rest, reference, threshold, |angles|);
      && t + ParkSequence(maxAngle, false) == t0 + AlertCommands(angles, e, maxAngle)
      && RotationReadings(e, |angles|) == k + 1 && !e.RanOut?
  {
    var angles := RotationAngles(maxAngle, minAngle);
    DropExit(rest, reference, threshold, |angles|, k);
    AppendAssoc(t0, YieldedTrace(angles[..k + 1]), ParkSequence(maxAngle, false));
  }

  lemma ExhaustedTrace(t0: seq<ServoCommand>, t: seq<ServoCommand>, rest: seq<Reading>, reference: int, threshold: int,
                       maxAngle: int, minAngle: int, k: nat)
    requires k == |rest| && k < |RotationAngles(maxAngle, minAngle)|
    requires t == t0 + YieldedTrace(RotationAngles(maxAngle, minAngle)[..k + 1])
    requires forall i :: 0 <= i < k ==> !Drop(rest[i], reference, threshold)
    ensures var angles := RotationAngles(maxAngle, minAngle);
      var e := RotationEnd(rest, reference, threshold, |angles|);
      && t == t0 + AlertCommands(angles, e, maxAngle)
      && RotationReadings(e, |angles|) == |rest| && e.RanOut?
  {
    assert rest[..|rest|] == rest;
    FirstDropIs(rest, reference, threshold, |rest|);
  }

  lemma CompletedTrace(t0: seq<ServoCommand>, t: seq<ServoCommand>, rest: seq<Reading>, reference: int, threshold: int,
                       maxAngle: int, minAngle: int, k: nat, pending: bool)
    requires k == |RotationAngles(maxAngle, minAngle)| && k <= |rest| && pending == (k > 0)
    requires t == t0 + YieldedTrace(RotationAngles(maxAngle, minAngle)[..k]) + (if pending then [Detached] else [])
    requires forall i :: 0 <= i < k ==> !Drop(rest[i], reference, threshold)
    ensures var angles := RotationAngles(maxAngle, minAngle);
      var e := RotationEnd(rest, reference, threshold, |angles|);
      && t + ParkSequence(maxAngle, false) == t0 + AlertCommands(angles, e, maxAngle)
      && RotationReadings(e, |angles|) == k && !e.RanOut?
  {
    var angles := RotationAngles(maxAngle, minAngle);
    assert angles[..k] == angles;
    var steps := YieldedTrace(angles) + (if pending then [Detached] else []);
    assert steps == StepsTrace(angles) by {
      if k > 0 {
        YieldedThenDetached(angles);
      }
    }
    CompletedExit(rest, reference, threshold, k);
    AppendAssoc(t0, steps, ParkSequence(maxAngle, false));
  }

  /** The trace after the `k`-th yield of the rotation, which detaches the
      previous angle when there was one and moves to the next. */
  lemma YieldStep(t0: seq<ServoCommand>, before: seq<ServoCommand>, t: seq<ServoCommand>,
                  maxAngle: int, minAngle: int, k: nat, pending: bool, next: int)
    requires k < |RotationAngles(maxAngle, minAngle)|
    requires before == t0 + YieldedTrace(RotationAngles(maxAngle, minAngle)[..k])
    requires pending == (k > 0) && next == maxAngle - k
    requires t == before + (if pending then [Detached] else []) + [Move(next)]
    ensures t == t0 + YieldedTrace(RotationAngles(maxAngle, minAngle)[..k + 1])
  {
    var angles := RotationAngles(maxAngle, minAngle);
    YieldedTraceStep(angles, k);
    AppendAssoc(t0, YieldedTrace(angles[..k]), if k > 0 then [Detached] else []);
    AppendAssoc(t0, YieldedTrace(angles[..k]) + (if k > 0 then [Detached] else []), [Move(angles[k])]);
  }

  /** `n` copies of `cmds`, one after another. */
  function Repeat(cmds: seq<ServoCommand>, n: nat): (r: seq<ServoCommand>)
    ensures |r| == n * |cmds|
  {
    if n == 0 then [] else Repeat(cmds, n - 1) + cmds
  }

  /** What one pass of the `monitor_drinking` loop found: the clock or
      the sensor script ran out, the session had run out, the reading was
      a drop (and whether the restart after it found the cup and a clock
      reading), or the reading was quiet. */
  datatype Poll = NoClock | PastSession | NoReading | Drink(restarted: bool) | Quiet

  /** What `monitor_drinking` leaves of the readings `rs` and the clock
      readings `ts` when its first session ends with `e` after `p` quiet
      polls, and that only a timeout returns `true`. A timeout or a failed
      clock reading leaves the readings after the first `p`; a timeout or
      a failed sensor reading leaves the clock readings after the first
      `p + 1`. After a drink the restart consumes more of both. */
  ghost predicate SessionOutcome(e: SessionEnd, rs: seq<Reading>, ts: seq<Instant>,
                                 readings: seq<Reading>, ticks: seq<Instant>, timedOut: bool)
    requires e.TimedOut? || e.SensorRanOut? ==> e.polls < |ts|
  {
    match e
    case TimedOut(p) => timedOut && |readings| == |rs| - p && ticks == ts[p + 1..]
    case ClockRanOut(p) => !timedOut && |readings| == |rs| - p && ticks == []
    case SensorRanOut(p) => !timedOut && readings == [] && ticks == ts[p + 1..]
    case Drank(p) => |readings| < |rs| - p && |ticks| < |ts| - p
  }

  lemma ParksAccumulate(t0: seq<ServoCommand>, before: seq<ServoCommand>, after: seq<ServoCommand>, maxAngle: int, n: nat)
    requires before == t0 + Repeat(ParkSequence(maxAngle, true), n)
    requires after == before + ParkSequence(maxAngle, true)
    ensures after == t0 + Repeat(ParkSequence(maxAngle, true), n + 1)
  {
    AppendAssoc(t0, Repeat(ParkSequence(maxAngle, true), n), ParkSequence(maxAngle, true));
  }

  /** One rotation step: after detaching the previous angle, the next one. */
  lemma YieldedTraceStep(angles: seq<int>, k: nat)
    requires k < |angles|
    ensures YieldedTrace(angles[..k + 1])
      == YieldedTrace(angles[..k]) + (if k > 0 then [Detached] else []) + [Move(angles[k])]
  {
    assert angles[..k + 1][..k] == angles[..k];
  }

  class HydrationMonitor {
    const settings: Settings
    const sm: HydrationStateMachine
    const servo: ServoController
    const sensor: WeightSensor
    const clock: Clock
    const logger: WeightLogger

    /** The components are configured from the settings. */
    ghost predicate Valid()
      reads sm, clock
    {
      && sm.Valid()
      && servo.minAngle == settings.minAngle
      && servo.maxAngle == settings.maxAngle
      && sm.monitoringDurationS == settings.monitoringDurationS
      && clock.Valid()
    }

    /** `__init__`: the logger (creating the log file when it is missing),
        the sensor, the servo and the state machine, all from the settings. */
    constructor (settings: Settings, readings: seq<Reading>, ticks: seq<Instant>,
                 existingLog: Option<seq<Row>>, logWritable: bool)
      requires forall i :: 0 <= i < |ticks| ==> ValidDateTime(ticks[i].local)
      requires existingLog.Some? || logWritable
      ensures Valid()
      ensures this.settings == settings
      ensures sm.state == Idle && sm.monitoringStartTime == None
      ensures servo.trace == []
      ensures sensor.readings == readings && clock.ticks == ticks
      ensures logger.file == (if existingLog.None? then Some([Header]) else existingLog)
    {
      this.settings := settings;
      logger := new WeightLogger(existingLog, logWritable);
      sensor := new WeightSensor(readings);
      servo := new ServoController(settings.minAngle, settings.maxAngle);
      sm := new HydrationStateMachine(settings.monitoringDurationS);
      clock := new Clock(ticks);
    }

    /** `wait_for_cup`: goes idle, reads until a weight of at least the
        threshold appears, then takes one more reading as the settled
        weight, logs it with the current time and returns it. That settled
        weight is not compared with the threshold again. */
    method WaitForCup() returns (stable: Option<int>)
      requires Valid()
      modifies sm, sensor, clock, logger
      ensures Valid()
      ensures sm.state == Idle && sm.monitoringStartTime == None
      ensures sm.lastSignificantWeight == old(sm.lastSignificantWeight)
      ensures var rs := old(sensor.readings); var k := FirstAtLeast(rs, settings.weightThresholdCg);
        stable.Some? <==> k + 1 < |rs| && old(clock.ticks) != []
      ensures var rs := old(sensor.readings); var k := FirstAtLeast(rs, settings.weightThresholdCg);
        stable.Some? ==>
          && stable.value == WeightOf(rs[k + 1])
          && sensor.readings == rs[k + 2..]
          && clock.ticks == old(clock.ticks)[1..] && clock.last == Some(old(clock.ticks)[0])
          && (logger.writable ==> logger.file == Some(RowsOf(old(logger.file)) + [FormatRow(old(clock.ticks)[0].local, stable.value)]))
          && (!logger.writable ==> logger.file == old(logger.file))
      ensures stable.None? ==> logger.file == old(logger.file) && (sensor.readings == [] || clock.ticks == [])
      ensures |sensor.readings| <= |old(sensor.readings)|
      ensures clock.ticks == old(clock.ticks) || (old(clock.ticks) != [] && clock.ticks == old(clock.ticks)[1..])
    {
      sm.TransitionToIdle();
      ghost var rs := sensor.readings;
      var threshold := settings.weightThresholdCg;
      ghost var i := 0;
      while true
        invariant Valid()
        invariant sm.state == Idle && sm.monitoringStartTime == None
        invariant sm.lastSignificantWeight == old(sm.lastSignificantWeight)
        invariant 0 <= i <= |rs| && sensor.readings == rs[i..]
        invariant forall j :: 0 <= j < i ==> WeightOf(rs[j]) < threshold
        invariant clock.ticks == old(clock.ticks) && clock.last == old(clock.last)
        invariant logger.file == old(logger.file)
        decreases |sensor.readings|
      {
        var weight := sensor.GetWeight(settings.readTimes);
        if weight.None? {
          return None;
        }
        if weight.value >= threshold {
          assert FirstAtLeast(rs, threshold) == i;
          stable := sensor.GetWeight(settings.readTimes);
          if stable.None? {
            return;
          }
          var now := clock.Now();
          if now.None? {
            return None;
          }
          var _ := logger.LogWeight(stable.value, None, now.value.local);
          return;
        }
        i := i + 1;
      }
    }

    /** The state after a session start that found the readings `rs`, the
        clock readings `ts` and the log `file0`: the cup was seen at the
        first reading of at least the threshold, the reading after it is
        the new reference weight, logged (when the log is writable) at the
        first clock reading, and the second clock reading starts the
        session. */
    ghost predicate SessionStarted(rs: seq<Reading>, ts: seq<Instant>, file0: Option<seq<Row>>)
      reads sm, sensor, clock, logger
    {
      var k := FirstAtLeast(rs, settings.weightThresholdCg);
      && k + 2 <= |rs| && 2 <= |ts| && ValidDateTime(ts[0].local)
      && sensor.readings == rs[k + 2..]
      && clock.ticks == ts[2..] && clock.last == Some(ts[1])
      && sm.state == Monitoring && sm.monitoringStartTime == Some(ts[1].seconds)
      && sm.lastSignificantWeight == WeightOf(rs[k + 1])
      && logger.file == (if logger.writable then Some(RowsOf(file0) + [FormatRow(ts[0].local, WeightOf(rs[k + 1]))]) else file0)
    }

    /** The session start shared by `run` (after each cup is placed) and
        by `monitor_drinking` (after drinking): wait for the cup, then
        start the session at the current time against the settled weight. */
    method StartMonitoring(restart: bool) returns (ok: bool)
      requires Valid()
      modifies sm, sensor, clock, logger
      ensures Valid()
      ensures ok ==> SessionStarted(old(sensor.readings), old(clock.ticks), old(logger.file))
      ensures Appended(old(logger.file), logger.file, logger.writable, if ok then 1 else 0, 1)
      ensures !ok ==> sensor.readings == [] || clock.ticks == []
      ensures |sensor.readings| <= |old(sensor.readings)| && |clock.ticks| <= |old(clock.ticks)|
    {
      var weight := WaitForCup();
      if weight.None? {
        return false;
      }
      var now := clock.Now();
      if now.None? {
        return false;
      }
      if restart {
        sm.ResetMonitoringTimer(weight.value, now.value.seconds);
      } else {
        sm.TransitionToMonitoring(weight.value, now.value.seconds);
      }
      return true;
    }

    /** What `monitor_drinking` does on drinking: park the servo
        gradually, then wait for the cup and restart the session. */
    method RestartAfterDrinking() returns (ok: bool)
      requires Valid()
      modifies sm, servo, sensor, clock, logger
      ensures Valid()
      ensures servo.trace == old(servo.trace) + ParkSequence(settings.maxAngle, true)
      ensures ok ==> SessionStarted(old(sensor.readings), old(clock.ticks), old(logger.file))
      ensures Appended(old(logger.file), logger.file, logger.writable, if ok then 1 else 0, 1)
      ensures !ok ==> sensor.readings == [] || clock.ticks == []
      ensures |sensor.readings| <= |old(sensor.readings)| && |clock.ticks| <= |old(clock.ticks)|
    {
      servo.MoveToInitialPosition(true);
      ok := StartMonitoring(true);
    }

    /** One pass of the `monitor_drinking` loop: reads the clock and stops
        when the session has run out; otherwise reads the weight, and on a
        drop of at least the threshold below the reference parks the servo
        gradually, waits for the cup and restarts the session. */
    method PollOnce() returns (p: Poll)
      requires Valid()
      requires sm.state == Monitoring
      modifies sm, servo, sensor, clock, logger
      ensures Valid()
      ensures var ts, start := old(clock.ticks), old(sm.monitoringStartTime).value;
        && (p.NoClock? <==> ts == [])
        && (p.PastSession? <==> ts != [] && Expired(ts[0], start, settings.monitoringDurationS))
        && (p.NoReading? <==> ts != [] && !Expired(ts[0], start, settings.monitoringDurationS) && old(sensor.readings) == [])
      ensures p.Drink? <==> !p.NoClock? && !p.PastSession? && !p.NoReading? &&
                            Drop(old(sensor.readings)[0], old(sm.lastSignificantWeight), settings.weightThresholdCg)
      ensures !p.Drink? ==>
        && sm.state == Monitoring && sm.lastSignificantWeight == old(sm.lastSignificantWeight)
        && sm.monitoringStartTime == old(sm.monitoringStartTime)
        && servo.trace == old(servo.trace) && logger.file == old(logger.file)
        && clock.ticks == (if p.NoClock? then [] else old(clock.ticks)[1..])
        && sensor.readings == (if p.Quiet? then old(sensor.readings)[1..] else old(sensor.readings))
      ensures p.PastSession? ==> clock.last.Some? && sm.IsMonitoringTimeout(clock.last.value.seconds)
      ensures p.Drink? ==>
        && servo.trace == old(servo.trace) + ParkSequence(settings.maxAngle, true)
        && Appended(old(logger.file), logger.file, logger.writable, if p.restarted then 1 else 0, 1)
        && (p.restarted ==> sm.state == Monitoring)
        && (!p.restarted ==> sensor.readings == [] || clock.ticks == [])
        && |sensor.readings| < |old(sensor.readings)| && |clock.ticks| < |old(clock.ticks)|
      ensures p.Drink? && p.restarted ==>
        SessionStarted(old(sensor.readings)[1..], old(clock.ticks)[1..], old(logger.file))
    {
      var now := clock.Now();
      if now.None? {
        return NoClock;
      }
      if sm.IsMonitoringTimeout(now.value.seconds) {
        return PastSession;
      }
      var weight := sensor.GetWeight(settings.readTimes);
      if weight.None? {
        return NoReading;
      }
      if sm.lastSignificantWeight - weight.value >= settings.weightThresholdCg {
        var restarted := RestartAfterDrinking();
        return Drink(restarted);
      }
      return Quiet;
    }

    /** `monitor_drinking`: repeats `PollOnce` until the session times out.
        A drop of at least the threshold from the reference is drinking, on
        which the servo parks gradually, the loop waits for the cup to come
        back (logging its weight) and restarts the session against that
        weight. Returns `true` on
        the timeout, the source's only way out (its return value `False`
        is constant and unused), and `false` when a script ran out. The
        ghost `drinks` counts the drinks seen and `session` is how the
        first session ended. */
    method MonitorDrinking() returns (timedOut: bool, ghost drinks: nat, ghost session: SessionEnd)
      requires Valid()
      requires sm.state == Monitoring
      modifies sm, servo, sensor, clock, logger
      ensures Valid()
      ensures session == FirstSession(old(sensor.readings), old(clock.ticks), old(sm.lastSignificantWeight),
                                      settings.weightThresholdCg, old(sm.monitoringStartTime).value, settings.monitoringDurationS)
      ensures drinks == 0 <==> !session.Drank?
      ensures SessionOutcome(session, old(sensor.readings), old(clock.ticks), sensor.readings, clock.ticks, timedOut)
      ensures timedOut ==> clock.last.Some? && sm.state == Monitoring && sm.IsMonitoringTimeout(clock.last.value.seconds)
      ensures !timedOut ==> sensor.readings == [] || clock.ticks == []
      ensures servo.trace == old(servo.trace) + Repeat(ParkSequence(settings.maxAngle, true), drinks)
      ensures drinks == 0 ==> sm.lastSignificantWeight == old(sm.lastSignificantWeight)
      ensures drinks == 0 ==> sm.monitoringStartTime == old(sm.monitoringStartTime)
      ensures drinks == 0 ==> logger.file == old(logger.file)
      ensures drinks > 0 ==> Appended(old(logger.file), logger.file, logger.writable, drinks - 1, drinks)
      ensures timedOut ==> Appended(old(logger.file), logger.file, logger.writable, drinks, drinks)
    {
      ghost var rs, ts := sensor.readings, clock.ticks;
      ghost var reference, start := sm.lastSignificantWeight, sm.monitoringStartTime.value;
      ghost var threshold, duration := settings.weightThresholdCg, settings.monitoringDurationS;
      drinks, session := 0, ClockRanOut(0);
      ghost var i := 0;
      while true
        invariant Valid()
        invariant sm.state == Monitoring
        invariant servo.trace == old(servo.trace) + Repeat(ParkSequence(settings.maxAngle, true), drinks)
        invariant drinks == 0 ==>
          && 0 <= i <= |rs| && i <= |ts|
          && sensor.readings == rs[i..] && clock.ticks == ts[i..]
          && QuietPrefix(rs, ts, reference, threshold, start, duration, i)
          && sm.lastSignificantWeight == reference
          && sm.monitoringStartTime == Some(start)
          && logger.file == old(logger.file)
        invariant drinks > 0 ==>
          && session == FirstSession(rs, ts, reference, threshold, start, duration)
          && session.Drank? && |sensor.readings| < |rs| - session.polls && |clock.ticks| < |ts| - session.polls
          && Appended(old(logger.file), logger.file, logger.writable, drinks, drinks)
        decreases |sensor.readings| + |clock.ticks|
      {
        ghost var before, logged := servo.trace, logger.file;
        ghost var readings0, ticks0 := sensor.readings, clock.ticks;
        var p := PollOnce();
        if p.NoClock? {
          if drinks == 0 {
            session := ClockRanOut(i);
            SessionEndsAt(rs, ts, reference, threshold, start, duration, session);
          }
          return false, drinks, session;
        }
        if p.PastSession? {
          if drinks == 0 {
            session := TimedOut(i);
            SessionEndsAt(rs, ts, reference, threshold, start, duration, session);
          }
          return true, drinks, session;
        }
        if p.NoReading? {
          if drinks == 0 {
            session := SensorRanOut(i);
            SessionEndsAt(rs, ts, reference, threshold, start, duration, session);
          }
          return false, drinks, session;
        }
        if p.Drink? {
          if drinks == 0 {
            session := Drank(i);
            SessionEndsAt(rs, ts, reference, threshold, start, duration, session);
            AppendedNone(logger.file, logger.writable);
          }
          ParksAccumulate(old(servo.trace), before, servo.trace, settings.maxAngle, drinks);
          AppendedChain(old(logger.file), logged, logger.file, logger.writable, drinks, drinks, if p.restarted then 1 else 0, 1);
          drinks := drinks + 1;
          if !p.restarted {
            return false, drinks, session;
          }
        } else if drinks == 0 {
          QuietStep(rs, ts, reference, threshold, start, duration, i, readings0, ticks0);
          i := i + 1;
        }
      }
    }

    /** `trigger_alert`: switches to alerting, takes a reference reading and
        rotates the servo slowly from the maximum angle down to the minimum,
        checking one reading per angle; drinking stops the rotation, and
        either way the servo parks directly. Equal servo bounds would make
        the step interval divide by zero. */
    method TriggerAlert() returns (finished: bool)
      requires Valid()
      requires settings.maxAngle != settings.minAngle
      modifies sm, servo, sensor
      ensures Valid()
      ensures sm.state == Alerting && sm.monitoringStartTime == None
      ensures sm.lastSignificantWeight == old(sm.lastSignificantWeight)
      ensures old(sensor.readings) == [] ==> !finished && servo.trace == old(servo.trace) && sensor.readings == []
      ensures old(sensor.readings) != [] ==>
        var rs := old(sensor.readings);
        var angles := RotationAngles(settings.maxAngle, settings.minAngle);
        var e := RotationEnd(rs[1..], WeightOf(rs[0]), settings.weightThresholdCg, |angles|);
        && servo.trace == old(servo.trace) + AlertCommands(angles, e, settings.maxAngle)
        && sensor.readings == rs[1 + RotationReadings(e, |angles|)..]
        && finished == !e.RanOut?
    {
      sm.TransitionToAlerting();
      var start := sensor.GetWeight(settings.readTimes);
      if start.None? {
        return false;
      }
      var rot := servo.RotateSlowly(settings.alertDurationS);
      finished := WatchRotation(start.value, rot);
    }

    /** The `for` loop of `trigger_alert` over the rotation generator. */
    method WatchRotation(reference: int, rot: Rotation) returns (finished: bool)
      requires servo.minAngle == settings.minAngle && servo.maxAngle == settings.maxAngle
      requires rot.next == settings.maxAngle && !rot.pendingDetach
      modifies servo, sensor
      ensures var angles := RotationAngles(settings.maxAngle, settings.minAngle);
        var e := RotationEnd(old(sensor.readings), reference, settings.weightThresholdCg, |angles|);
        && servo.trace == old(servo.trace) + AlertCommands(angles, e, settings.maxAngle)
        && sensor.readings == old(sensor.readings)[RotationReadings(e, |angles|)..]
        && finished == !e.RanOut?
    {
      ghost var rest := sensor.readings;
      var threshold := settings.weightThresholdCg;
      ghost var angles := RotationAngles(settings.maxAngle, settings.minAngle);
      var rot := rot;
      ghost var k := 0;
      while true
        invariant 0 <= k <= |angles| && k <= |rest|
        invariant sensor.readings == rest[k..]
        invariant rot.next == settings.maxAngle - k && rot.pendingDetach == (k > 0)
        invariant servo.trace == old(servo.trace) + YieldedTrace(angles[..k])
        invariant forall i :: 0 <= i < k ==> !Drop(rest[i], reference, threshold)
        decreases |angles| - k
      {
        ghost var before := servo.trace;
        ghost var pending := rot.pendingDetach;
        var angle;
        rot, angle := servo.NextAngle(rot);
        if angle.None? {
          CompletedTrace(old(servo.trace), servo.trace, rest, reference, threshold, settings.maxAngle, settings.minAngle, k, pending);
          servo.MoveToInitialPosition(false);
          return true;
        }
        YieldStep(old(servo.trace), before, servo.trace, settings.maxAngle, settings.minAngle, k, pending, angle.value);
        var weight := sensor.GetWeight(1);
        if weight.None? {
          assert |rest[k..]| == 0;
          ExhaustedTrace(old(servo.trace), servo.trace, rest, reference, threshold, settings.maxAngle, settings.minAngle, k);
          return false;
        }
        if reference - weight.value >= threshold {
          InterruptedTrace(old(servo.trace), servo.trace, rest, reference, threshold, settings.maxAngle, settings.minAngle, k);
          servo.MoveToInitialPosition(false);
          return true;
        }
        k := k + 1;
      }
    }

    /** `run`: parks the servo, waits for the first cup and starts
        monitoring; then forever monitors, alerts on the timeout, waits for
        the cup and monitors again. It ends only when a script runs out. */
    method Run()
      requires Valid()
      requires settings.maxAngle != settings.minAngle
      modifies sm, servo, sensor, clock, logger
      ensures sensor.readings == [] || clock.ticks == []
      ensures |servo.trace| >= |old(servo.trace)| + 2
      ensures servo.trace[..|old(servo.trace)| + 2] == old(servo.trace) + ParkSequence(settings.maxAngle, false)
      ensures Kept(old(logger.file), logger.file, logger.writable)
    {
      servo.MoveToInitialPosition(false);
      ghost var parked := servo.trace;
      ghost var later: seq<ServoCommand> := [];
      var started := StartMonitoring(false);
      if !started {
        return;
      }
      while true
        invariant Valid()
        invariant sm.state == Monitoring
        invariant servo.trace == parked + later
        invariant Kept(old(logger.file), logger.file, logger.writable)
        decreases |sensor.readings| + |clock.ticks|
      {
        var timedOut;
        ghost var drinks, session;
        ghost var logged := logger.file;
        timedOut, drinks, session := MonitorDrinking();
        KeptChain(old(logger.file), logged, logger.file, logger.writable);
        AppendAssoc(parked, later, Repeat(ParkSequence(settings.maxAngle, true), drinks));
        later := later + Repeat(ParkSequence(settings.maxAngle, true), drinks);
        if !timedOut {
          return;
        }
        var finished := TriggerAlert();
        ghost var alert := servo.trace[|parked + later|..];
        assert servo.trace == parked + later + alert;
        AppendAssoc(parked, later, alert);
        later := later + alert;
        if !finished {
          return;
        }
        logged := logger.file;
        started := StartMonitoring(false);
        KeptChain(old(logger.file), logged, logger.file, logger.writable);
        if !started {
          return;
        }
      }
    }
  }
}

=== FILE: servo.dfy ===
/** `ServoController`: the tilting servo, observed as the trace of commands
    it receives. `Move(a)` is an assignment to the servo's angle, `Detached`
    a power cut. The settling pauses are left out. */
module Servo {
  import opened Common

  datatype ServoCommand = Move(angle: int) | Detached

  /** The pause `rotate_slowly` leaves for each move, in seconds. */
  const ServoMoveTime: real := 0.1

  /** `move_to_initial_position`: in three steps (a quarter and a half of the
      maximum angle, truncated, then the maximum) when gradual, straight to
      the maximum otherwise; either way followed by a detach. */
  function ParkSequence(maxAngle: int, gradual: bool): (cmds: seq<ServoCommand>)
    ensures |cmds| == (if gradual then 4 else 2)
    ensures cmds[|cmds| - 2] == Move(maxAngle) && cmds[|cmds| - 1] == Detached
    ensures forall i :: 0 <= i < |cmds| - 1 ==> cmds[i].Move?
    ensures gradual ==> cmds[0] == Move(TruncDiv(maxAngle, 4)) && cmds[1] == Move(TruncDiv(maxAngle, 2))
  {
    if gradual then [Move(TruncDiv(maxAngle, 4)), Move(TruncDiv(maxAngle, 2)), Move(maxAngle), Detached]
    else [Move(maxAngle), Detached]
  }

  /** The angles `rotate_slowly` visits: `range(hi, lo - 1, -1)`. */
  function RotationAngles(hi: int, lo: int): (angles: seq<int>)
    ensures |angles| == if hi >= lo then hi - lo + 1 else 0
    ensures forall i :: 0 <= i < |angles| ==> angles[i] == hi - i
  {
    seq(if hi >= lo then hi - lo + 1 else 0, i => hi - i)
  }

  /** The rotation starts at the maximum, ends at the minimum and visits
      every angle between them once, in strictly decreasing order. */
  lemma RotationVisitsEachAngleOnce(hi: int, lo: int)
    requires hi >= lo
    ensures var angles := RotationAngles(hi, lo);
      && angles[0] == hi && angles[|angles| - 1] == lo
      && (forall i, j :: 0 <= i < j < |angles| ==> angles[i] > angles[j])
      && (forall a :: lo <= a <= hi <==> a in angles)
  {
    var angles := RotationAngles(hi, lo);
    forall a | lo <= a <= hi ensures a in angles {
      assert angles[hi - a] == a;
    }
  }

  /** The pause after each step: the duration spread over the steps, minus
      the move time, clamped at zero. */
  function StepInterval(durationS: int, totalSteps: int): (pause: real)
    requires totalSteps != 0
    ensures pause >= 0.0
    ensures pause >= durationS as real / totalSteps as real - ServoMoveTime
    ensures pause == 0.0 || pause == durationS as real / totalSteps as real - ServoMoveTime
  {
    var interval := durationS as real / totalSteps as real - ServoMoveTime;
    if interval < 0.0 then 0.0 else interval
  }

  /** The commands of completed rotation steps: each angle, then a detach. */
  function StepsTrace(angles: seq<int>): (cmds: seq<ServoCommand>)
    ensures |cmds| == 2 * |angles|
  {
    if angles == [] then [] else StepsTrace(angles[..|angles| - 1]) + [Move(angles[|angles| - 1]), Detached]
  }

  /** Step `i` of a completed rotation moves to the `i`-th angle and then
      detaches. */
  lemma {:induction false} StepsTraceAlternates(angles: seq<int>)
    ensures forall i :: 0 <= i < |angles| ==> StepsTrace(angles)[2 * i] == Move(angles[i]) && StepsTrace(angles)[2 * i + 1] == Detached
  {
    if angles != [] {
      var init := angles[..|angles| - 1];
      StepsTraceAlternates(init);
      forall i | 0 <= i < |init| ensures init[i] == angles[i] { }
    }
  }

  /** The commands after the generator has yielded `angles` and is suspended
      at its last yield: the last angle has not been detached yet. */
  function YieldedTrace(angles: seq<int>): (cmds: seq<ServoCommand>)
    ensures angles == [] ==> cmds == []
    ensures angles != [] ==> |cmds| == 2 * |angles| - 1
  {
    if angles == [] then [] else StepsTrace(angles[..|angles| - 1]) + [Move(angles[|angles| - 1])]
  }

  /** Resuming the suspended generator detaches the last angle, completing
      the steps yielded so far. */
  lemma YieldedThenDetached(angles: seq<int>)
    requires angles != []
    ensures YieldedTrace(angles) + [Detached] == StepsTrace(angles)
  {
  }

  /** The suspended `rotate_slowly` generator: the next angle to yield,
      whether a yield is outstanding (resuming it detaches the servo first),
      and the pause it computed. */
  datatype Rotation = Rotation(next: int, pendingDetach: bool, stepInterval: real)

  class ServoController {
    const minAngle: int
    const maxAngle: int
    /** Every command sent to the servo so far. */
    var trace: seq<ServoCommand>

    constructor (minAngle: int, maxAngle: int)
      ensures this.minAngle == minAngle && this.maxAngle == maxAngle
      ensures trace == []
    {
      this.minAngle := minAngle;
      this.maxAngle := maxAngle;
      trace := [];
    }

    method MoveToAngle(angle: int)
      modifies this
      ensures trace == old(trace) + [Move(angle)]
    {
      trace := trace + [Move(angle)];
    }

    method Detach()
      modifies this
      ensures trace == old(trace) + [Detached]
    {
      trace := trace + [Detached];
    }

    method MoveToInitialPosition(gradual: bool)
      modifies this
      ensures trace == old(trace) + ParkSequence(maxAngle, gradual)
    {
      if gradual {
        MoveToAngle(TruncDiv(maxAngle, 4));
        MoveToAngle(TruncDiv(maxAngle, 2));
        MoveToAngle(maxAngle);
      } else {
        MoveToAngle(maxAngle);
      }
      Detach();
    }

    /** Creates the rotation generator. Equal bounds make `total_steps`
        zero and the interval computation divide by zero. */
    method RotateSlowly(durationS: int) returns (rot: Rotation)
      requires maxAngle != minAngle
      ensures rot.next == maxAngle && !rot.pendingDetach
      ensures rot.stepInterval == StepInterval(durationS, maxAngle - minAngle)
    {
      rot := Rotation(maxAngle, false, StepInterval(durationS, maxAngle - minAngle));
    }

    /** Resumes the generator: detaches after the previous yield, then
        commands and yields the next angle, or finishes below the minimum. */
    method NextAngle(rot: Rotation) returns (rot': Rotation, angle: Option<int>)
      modifies this
      ensures angle.Some? <==> rot.next >= minAngle
      ensures angle.Some? ==> angle.value == rot.next && rot' == rot.(next := rot.next - 1, pendingDetach := true)
      ensures angle.Some? ==> trace == old(trace) + (if rot.pendingDetach then [Detached] else []) + [Move(angle.value)]
      ensures angle.None? ==> rot' == rot.(pendingDetach := false)
      ensures angle.None? ==> trace == old(trace) + (if rot.pendingDetach then [Detached] else [])
    {
      if rot.pendingDetach {
        Detach();
      }
      if rot.next < minAngle {
        return rot.(pendingDetach := false), None;
      }
      trace := trace + [Move(rot.next)];
      return rot.(next := rot.next - 1, pendingDetach := true), Some(rot.next);
    }
  }
}

=== FILE: stable_sort.dfy ===
/** Python's `list.sort(key=...)` as it is used on the weight log: a
    stable sort by an integer key. Modelled as insertion from the back,
    which moves an element only past elements with a strictly larger key. */
module StableSort {

  ghost predicate SortedBy<T>(s: seq<T>, key: T -> int) {
    forall i, j :: 0 <= i < j < |s| ==> key(s[i]) <= key(s[j])
  }

  /** Every element of `s` has a key no larger than `k`. */
  ghost predicate KeysAtMost<T>(s: seq<T>, key: T -> int, k: int) {
    forall i :: 0 <= i < |s| ==> key(s[i]) <= k
  }

  /** Places `x` after every element whose key is not larger than its own. */
  function InsertBy<T>(t: seq<T>, x: T, key: T -> int): (r: seq<T>)
    ensures multiset(r) == multiset(t) + multiset{x}
    ensures |r| == |t| + 1
  {
    if t == [] || key(t[|t| - 1]) <= key(x) then t + [x]
    else
      assert t == t[..|t| - 1] + [t[|t| - 1]];
      InsertBy(t[..|t| - 1], x, key) + [t[|t| - 1]]
  }

  lemma {:induction false} InsertKeepsBound<T>(t: seq<T>, x: T, key: T -> int, k: int)
    requires KeysAtMost(t, key, k) && key(x) <= k
    ensures KeysAtMost(InsertBy(t, x, key), key, k)
  {
    if t != [] && key(t[|t| - 1]) > key(x) {
      var t' := t[..|t| - 1];
      assert KeysAtMost(t', key, k);
      InsertKeepsBound(t', x, key, k);
    }
  }

  lemma SortedSnoc<T>(s: seq<T>, x: T, key: T -> int)
    requires SortedBy(s, key) && KeysAtMost(s, key, key(x))
    ensures SortedBy(s + [x], key)
  {
  }

  lemma SortedPrefix<T>(s: seq<T>, key: T -> int)
    requires SortedBy(s, key) && s != []
    ensures SortedBy(s[..|s| - 1], key) && KeysAtMost(s[..|s| - 1], key, key(s[|s| - 1]))
  {
  }

  lemma {:induction false} InsertKeepsSorted<T>(t: seq<T>, x: T, key: T -> int)
    requires SortedBy(t, key)
    ensures SortedBy(InsertBy(t, x, key), key)
  {
    if t == [] || key(t[|t| - 1]) <= key(x) {
      SortedSnoc(t, x, key);
    } else {
      var t', last := t[..|t| - 1], t[|t| - 1];
      SortedPrefix(t, key);
      InsertKeepsSorted(t', x, key);
      InsertKeepsBound(t', x, key, key(last));
      SortedSnoc(InsertBy(t', x, key), last, key);
    }
  }

  /** The sorted arrangement: ordered by key, and a permutation of `s`. */
  function SortBy<T>(s: seq<T>, key: T -> int): (r: seq<T>)
    ensures SortedBy(r, key)
    ensures multiset(r) == multiset(s) && |r| == |s|
  {
    if s == [] then []
    else
      var sorted := SortBy(s[..|s| - 1], key);
      InsertKeepsSorted(sorted, s[|s| - 1], key);
      assert s == s[..|s| - 1] + [s[|s| - 1]];
      InsertBy(sorted, s[|s| - 1], key)
  }

  /** Input already in key order comes out unchanged. */
  lemma {:induction false} SortKeepsSortedInput<T>(s: seq<T>, key: T -> int)
    requires SortedBy(s, key)
    ensures SortBy(s, key) == s
  {
    if s != [] {
      var s', x := s[..|s| - 1], s[|s| - 1];
      SortedPrefix(s, key);
      SortKeepsSortedInput(s', key);
      assert SortBy(s, key) == InsertBy(s', x, key);
      assert s' != [] ==> key(s'[|s'| - 1]) <= key(x);
      assert s' + [x] == s;
    }
  }

  /** The elements of `s` whose key is `k`, in order. */
  function WithKey<T>(s: seq<T>, key: T -> int, k: int): (r: seq<T>)
    ensures |r| <= |s|
  {
    if s == [] then []
    else WithKey(s[..|s| - 1], key, k) + (if key(s[|s| - 1]) == k then [s[|s| - 1]] else [])
  }

  lemma WithKeySingleton<T>(x: T, key: T -> int, k: int)
    ensures WithKey([x], key, k) == if key(x) == k then [x] else []
  {
    assert [x][..0] == [];
  }

  lemma {:induction false} WithKeyAppend<T>(a: seq<T>, b: seq<T>, key: T -> int, k: int)
    ensures WithKey(a + b, key, k) == WithKey(a, key, k) + WithKey(b, key, k)
    decreases |b|
  {
    if b == [] {
      assert a + b == a;
    } else {
      assert (a + b)[..|a + b| - 1] == a + b[..|b| - 1];
      WithKeyAppend(a, b[..|b| - 1], key, k);
    }
  }

  lemma WithKeySnoc<T>(s: seq<T>, key: T -> int, k: int)
    requires s != []
    ensures WithKey(s, key, k) == WithKey(s[..|s| - 1], key, k) + WithKey([s[|s| - 1]], key, k)
  {
    WithKeySingleton(s[|s| - 1], key, k);
  }

  lemma {:induction false} InsertWithKey<T>(t: seq<T>, x: T, key: T -> int, k: int)
    ensures WithKey(InsertBy(t, x, key), key, k) == WithKey(t, key, k) + WithKey([x], key, k)
  {
    if t == [] || key(t[|t| - 1]) <= key(x) {
      WithKeyAppend(t, [x], key, k);
    } else {
      var t', last := t[..|t| - 1], t[|t| - 1];
      InsertWithKey(t', x, key, k);
      WithKeyAppend(InsertBy(t', x, key), [last], key, k);
      WithKeySingleton(x, key, k);
      WithKeySingleton(last, key, k);
      WithKeySnoc(t, key, k);
    }
  }

  /** The sort is stable: elements with equal keys keep their order. */
  lemma {:induction false} SortIsStable<T>(s: seq<T>, key: T -> int, k: int)
    ensures WithKey(SortBy(s, key), key, k) == WithKey(s, key, k)
  {
    if s != [] {
      var s', x := s[..|s| - 1], s[|s| - 1];
      SortIsStable(s', key, k);
      InsertWithKey(SortBy(s', key), x, key, k);
      WithKeySnoc(s, key, k);
    }
  }

  /** Elements with the same key are the same element. */
  ghost predicate KeyDetermines<T>(s: seq<T>, key: T -> int) {
    forall i, j :: 0 <= i < |s| && 0 <= j < |s| && key(s[i]) == key(s[j]) ==> s[i] == s[j]
  }

  lemma MultisetTail<T>(a: seq<T>)
    requires a != []
    ensures multiset(a[1..]) == multiset(a) - multiset{a[0]}
  {
    assert a == [a[0]] + a[1..];
  }

  lemma MemberAt<T>(a: seq<T>, x: T) returns (i: int)
    requires x in multiset(a)
    ensures 0 <= i < |a| && a[i] == x
  {
    i :| 0 <= i < |a| && a[i] == x;
  }

  /** Sorted arrangements of the same elements start with the same
      element when the key determines the element. */
  lemma SortedHeadsAgree<T>(a: seq<T>, b: seq<T>, key: T -> int)
    requires SortedBy(a, key) && SortedBy(b, key) && multiset(a) == multiset(b)
    requires KeyDetermines(a, key) && a != [] && b != []
    ensures a[0] == b[0]
  {
    var i := MemberAt(b, a[0]);
    var j := MemberAt(a, b[0]);
    assert key(b[0]) <= key(b[i]) && key(a[0]) <= key(a[j]);
  }

  lemma KeyDeterminesTail<T>(a: seq<T>, key: T -> int)
    requires KeyDetermines(a, key) && a != []
    ensures KeyDetermines(a[1..], key)
  {
    forall i, j | 0 <= i < |a| - 1 && 0 <= j < |a| - 1 && key(a[1..][i]) == key(a[1..][j])
      ensures a[1..][i] == a[1..][j]
    {
      assert a[1..][i] == a[i + 1] && a[1..][j] == a[j + 1];
    }
  }

  /** What the induction step of `SortedArrangementIsUnique` needs: equal
      heads, and tails that again satisfy its requirements. */
  lemma SortedArrangementsStep<T>(a: seq<T>, b: seq<T>, key: T -> int)
    requires SortedBy(a, key) && SortedBy(b, key) && multiset(a) == multiset(b)
    requires KeyDetermines(a, key) && a != []
    ensures b != [] && a[0] == b[0]
    ensures SortedBy(a[1..], key) && SortedBy(b[1..], key) && multiset(a[1..]) == multiset(b[1..])
    ensures KeyDetermines(a[1..], key)
  {
    assert |b| == |multiset(b)| == |multiset(a)| == |a|;
    SortedHeadsAgree(a, b, key);
    MultisetTail(a);
    MultisetTail(b);
    KeyDeterminesTail(a, key);
  }

  /** Two sorted arrangements of the same elements are equal when elements
      with the same key are the same element. */
  lemma {:induction false} SortedArrangementIsUnique<T>(a: seq<T>, b: seq<T>, key: T -> int)
    requires SortedBy(a, key) && SortedBy(b, key) && multiset(a) == multiset(b)
    requires KeyDetermines(a, key)
    ensures a == b
  {
    if a == [] {
      assert |b| == |multiset(b)| == 0;
    } else {
      SortedArrangementsStep(a, b, key);
      SortedArrangementIsUnique(a[1..], b[1..], key);
      assert a == [a[0]] + a[1..] && b == [b[0]] + b[1..];
    }
  }

  /** When the key determines the element, the sorted result does not
      depend on the order of the input. */
  lemma SortIgnoresInputOrder<T>(s: seq<T>, t: seq<T>, key: T -> int)
    requires multiset(s) == multiset(t)
    requires KeyDetermines(s, key)
    ensures SortBy(s, key) == SortBy(t, key)
  {
    var a, b := SortBy(s, key), SortBy(t, key);
    forall i, j | 0 <= i < |a| && 0 <= j < |a| && key(a[i]) == key(a[j]) ensures a[i] == a[j] {
      var i' := MemberAt(s, a[i]);
      var j' := MemberAt(s, a[j]);
    }
    SortedArrangementIsUnique(a, b, key);
  }
}

=== FILE: state_machine.dfy ===
/** `HydrationStateMachine`: the current phase and the monitoring timer.
    Every reading of the clock (`time.time()`) is an explicit argument
    `now`, in whole seconds. */
module StateMachine {
  import opened Common

  datatype HydrationState = Idle | Monitoring | Alerting

  class HydrationStateMachine {
    var state: HydrationState
    const monitoringDurationS: int
    var monitoringStartTime: Option<int>
    var lastSignificantWeight: int

    /** A timer runs exactly while the machine is monitoring. */
    ghost predicate Valid()
      reads this
    {
      state == Monitoring <==> monitoringStartTime.Some?
    }

    constructor (monitoringDurationS: int)
      ensures Valid()
      ensures state == Idle && monitoringStartTime == None && lastSignificantWeight == 0
      ensures this.monitoringDurationS == monitoringDurationS
    {
      state := Idle;
      this.monitoringDurationS := monitoringDurationS;
      monitoringStartTime := None;
      lastSignificantWeight := 0;
    }

    /** Starts a monitoring session at `now` against `initialWeight`. */
    method TransitionToMonitoring(initialWeight: int, now: int)
      modifies this
      ensures Valid()
      ensures state == Monitoring && lastSignificantWeight == initialWeight
      ensures monitoringStartTime == Some(now)
      ensures ElapsedMonitoringTime(now) == 0
      ensures IsMonitoringTimeout(now) <==> monitoringDurationS <= 0
    {
      state := Monitoring;
      lastSignificantWeight := initialWeight;
      monitoringStartTime := Some(now);
    }

    method TransitionToAlerting()
      modifies this
      ensures Valid()
      ensures state == Alerting && monitoringStartTime == None
      ensures lastSignificantWeight == old(lastSignificantWeight)
    {
      state := Alerting;
      monitoringStartTime := None;
    }

    method TransitionToIdle()
      modifies this
      ensures Valid()
      ensures state == Idle && monitoringStartTime == None
      ensures lastSignificantWeight == old(lastSignificantWeight)
    {
      state := Idle;
      monitoringStartTime := None;
    }

    /** Restarts the session at `now` with a new reference weight, from
        whatever state the machine was in. */
    method ResetMonitoringTimer(newWeight: int, now: int)
      modifies this
      ensures Valid()
      ensures state == Monitoring && lastSignificantWeight == newWeight
      ensures monitoringStartTime == Some(now)
      ensures ElapsedMonitoringTime(now) == 0
      ensures IsMonitoringTimeout(now) <==> monitoringDurationS <= 0
    {
      state := Monitoring;
      monitoringStartTime := Some(now);
      lastSignificantWeight := newWeight;
    }

    /** Seconds since the session started; 0 when no session runs. */
    function ElapsedMonitoringTime(now: int): (e: int)
      reads this
      ensures state != Monitoring || monitoringStartTime.None? ==> e == 0
      ensures state == Monitoring && monitoringStartTime.Some? ==> monitoringStartTime.value + e == now
    {
      if state != Monitoring || monitoringStartTime.None? then 0
      else now - monitoringStartTime.value
    }

    /** Whether the session has run for its whole duration. */
    function IsMonitoringTimeout(now: int): (timedOut: bool)
      reads this
      ensures timedOut ==> state == Monitoring
      ensures state == Monitoring ==> (timedOut <==> ElapsedMonitoringTime(now) >= monitoringDurationS)
    {
      if state != Monitoring then false
      else ElapsedMonitoringTime(now) >= monitoringDurationS
    }

    /** Seconds left in the session, never negative; 0 when none runs. */
    function RemainingMonitoringTime(now: int): (r: int)
      reads this
      ensures r >= 0
      ensures state != Monitoring ==> r == 0
      ensures state == Monitoring ==> r >= monitoringDurationS - ElapsedMonitoringTime(now)
      ensures state == Monitoring && r > 0 ==> r == monitoringDurationS - ElapsedMonitoringTime(now)
    {
      if state != Monitoring then 0
      else
        var remaining := monitoringDurationS - ElapsedMonitoringTime(now);
        if remaining < 0 then 0 else remaining
    }
  }

  /** The timeout is a sharp boundary: false strictly before the duration
      has elapsed, true from the instant it has. */
  lemma TimeoutBoundary(m: HydrationStateMachine, now: int)
    requires m.state == Monitoring && m.monitoringStartTime.Some?
    ensures now - m.monitoringStartTime.value < m.monitoringDurationS ==> !m.IsMonitoringTimeout(now)
    ensures now - m.monitoringStartTime.value == m.monitoringDurationS ==> m.IsMonitoringTimeout(now)
    ensures m.IsMonitoringTimeout(now) ==> m.IsMonitoringTimeout(now + 1)
  {
  }

  /** While the clock has not gone back past the start, the remaining time
      lies between 0 and the duration. */
  lemma RemainingWithinDuration(m: HydrationStateMachine, now: int)
    requires m.state == Monitoring && m.monitoringStartTime.Some?
    requires now >= m.monitoringStartTime.value && m.monitoringDurationS >= 0
    ensures 0 <= m.RemainingMonitoringTime(now) <= m.monitoringDurationS
  {
  }

  /** While monitoring, the session has timed out exactly when no time is
      left. */
  lemma TimeoutIffNothingRemains(m: HydrationStateMachine, now: int)
    requires m.state == Monitoring
    ensures m.IsMonitoringTimeout(now) <==> m.RemainingMonitoringTime(now) == 0
  {
  }
}
